=== FILE: README.md ===
# PewPew pixel buffer and frame encoders

This project models the `Pix` pixel buffer in Dafny, together with the two
display encoders of the PewPew game-console libraries:

- `libs/PewPew3.0/pew.py`, the 3.0 board with a palette-driven LED controller;
- `libs/PewPewLite2.0/pew.py`, the Lite board with a two-bit-plane LED matrix and a key scanner.

Both files share the same `Pix` class. The model has one `Pix` and one
module per encoder:

| file | module | models |
|---|---|---|
| `option.dfy` | `Optional` | `None` defaults |
| `grid.dfy` | `Grid` | row-major index arithmetic `x + y*width` |
| `pixels.dfy` | `Pixels` | `Pix`, `pixel` get/set, `Pix(width, height)`, `from_iter` |
| `drawing.dfy` | `Drawing` | `box`, `blit` (clamping, clipping, colour key) |
| `glyphs.dfy` | `Glyphs` | `_FONT`, `_SALT`, `from_text` |
| `debug.dfy` | `Debug` | `__str__` and its inverse |
| `pewpew3.dfy` | `PewPew3` | 3.0 `_PALETTE`, `show`, `brightness`, text defaults |
| `pewpewlite.dfy` | `PewPewLite` | Lite `show(image, dx, dy)`, `brightness`, `keys`, text defaults |

## How the model works

- A `Pix` is an immutable record: `width`, `height` and a flat `seq` of bytes, one per cell.
- Every mutating method is a function that returns the new buffer.
- The loops of the source are mirrored as recursive functions over the same raw buffer indices. The in-bounds obligations of the source's indexing are therefore real proof obligations.
- Contracts state what each loop achieves pixel by pixel, through `Get` (`pixel(x, y)`).
- Cells are bytes, and storing a colour keeps its low eight bits (`Pixels.Store`). This is what MicroPython's `bytearray` does with an out-of-range integer. The 3.0 colours up to 7 and the Lite word's low byte both pass through this store.
- Python's `&`, `>>` and `%` on non-negative values are written as `%` and `/` by powers of two.
- Lite `brightness` masks a possibly negative level. Python's `level & 0x0f` equals `level % 16` under Dafny's Euclidean modulus, so that is what the model uses.
- A call that makes the source raise is modelled in one of two ways:
  - as an `Option` result, for `__str__` on a colour without a symbol;
  - as a precondition that names the demand, for 3.0 `show` when a byte it reads, at offset 7-x+r·width, lies outside the buffer or holds a colour of 8 or more, `box` on a buffer with no cells, and `from_iter` with no lines.
- The staging buffers `_buffer` are module globals in the source. Here they are parameters: the frames' contents are proved not to depend on them.

### Non-printable characters in `from_text`

A character outside 0x20..0x7F leaves no slot of its own. The `continue` comes before `x += 4`, so the character is dropped and the following glyphs move left. The unused columns at the right end of the `4*len(string)`-wide buffer stay 0. The model follows the code (`Glyphs.DrawText`, `Glyphs.SkippedCharacter`, `Glyphs.SkippedAnywhere`).

## Model

| member | source | states |
|---|---|---|
| Pixels.Store | libs/PewPew3.0/pew.py:117 | a stored colour is a byte, congruent to the colour modulo 256, and unchanged when already in 0..255 |
| Pixels.Get | libs/PewPew3.0/pew.py:112-116 | `pixel(x, y)` outside the grid reads 0; inside it reads the byte at flat index x + y·width, which lies inside the buffer |
| Pixels.New | libs/PewPew3.0/pew.py:69-74 | `Pix(width, height)` has one cell per pixel and every pixel reads 0 |
| Pixels.Set | libs/PewPew3.0/pew.py:112-117 | `pixel(x, y, color)` stores the colour at (x, y) when that is inside the grid; no other pixel changes and the shape is kept |
| Pixels.GetAfterSet | libs/PewPewLite2.0/pew.py:124-130 | an in-bounds pixel reads back what was written; every other pixel reads as before |
| Pixels.OutOfBoundsPixel | libs/PewPew3.0/pew.py:113-114 | outside the grid a pixel reads 0 and a write leaves the buffer equal to what it was |
| Pixels.DrawLine | libs/PewPew3.0/pew.py:105-108 | the inner `from_iter` loop writes `line[i]` to (i, y) for each remaining i inside the grid and nothing else |
| Pixels.DrawLines | libs/PewPew3.0/pew.py:104-109 | the outer `from_iter` loop writes `lines[j][i]` to (i, j) for the remaining rows, within the grid and within each row's length |
| Pixels.FromIter | libs/PewPew3.0/pew.py:101-110 | the buffer is `len(lines[0])` wide and `len(lines)` high; cell (x, y) is `lines[y][x]` where that exists and 0 where a short row does not reach |
| Drawing.OrDefault | libs/PewPew3.0/pew.py:122-123 | `v or d`: a missing or zero size falls back to the default; any other size is kept |
| Drawing.BoxRect | libs/PewPew3.0/pew.py:119-123 | the corner is clamped into the grid: a coordinate inside is kept, one below 0 becomes 0 and one past the edge becomes the last cell; a positive requested size that fits is kept, one that runs past the edge is cut to reach exactly the edge, a missing one reaches the edge, and a negative one gives size 0 |
| Drawing.FillRun | libs/PewPew3.0/pew.py:126-128 | the inner `box` loop sets exactly the n buffer bytes from `xx` to the colour |
| Drawing.FillRows | libs/PewPew3.0/pew.py:124-128 | the row loop of `box` colours exactly the cells of rows y..yEnd-1 within columns x..x+w-1 |
| Drawing.Box | libs/PewPew3.0/pew.py:119-128 | after `box`, a pixel holds the colour if and only if it is inside the clamped rectangle; every other pixel keeps its value |
| Drawing.BoxStaysInside | libs/PewPewLite2.0/pew.py:132-141 | every cell `box` fills is inside the grid |
| Drawing.BoxSizeDefaults | libs/PewPew3.0/pew.py:120-123 | a missing or zero width or height reaches the buffer's right or bottom edge; a negative one leaves the buffer unchanged |
| Drawing.BlitClip | libs/PewPew3.0/pew.py:132-147 | the destination corner moves right by the larger of the two negative overhangs (it is kept when dx and x are non-negative), the source corner moves with it so the offset is unchanged; both corners end non-negative, and the size is the requested one, cut to what the source or the destination still holds |
| Drawing.Keyed | libs/PewPew3.0/pew.py:163 | `color != key` fails only with a key, and then exactly for the key colour |
| Drawing.CopyRun | libs/PewPew3.0/pew.py:161-166 | the inner copy loop writes each of the n source bytes to the matching destination byte unless it equals the key; all other bytes are unchanged |
| Drawing.CopyRows | libs/PewPew3.0/pew.py:158-168 | the row loop copies every cell of the rectangle from the source cell at the same offset, except keyed values; cells outside it are unchanged |
| Drawing.Blit | libs/PewPewLite2.0/pew.py:143-171 | a destination pixel inside the clipped rectangle takes the source pixel at the same offset unless that equals the key; every other pixel keeps its value |
| Drawing.BlitIdempotent | libs/PewPew3.0/pew.py:157-168 | repeating the same `blit` changes nothing more |
| Drawing.BlitOffscreen | libs/PewPewLite2.0/pew.py:157-160 | a copy aimed past the destination's right or bottom edge, or taken from past the source's edge, leaves the destination unchanged |
| Drawing.BlitKeyTransparent | libs/PewPew3.0/pew.py:162-164 | with a key, a pixel whose source pixel holds the key, or that lies outside the clipped rectangle, keeps its value |
| Drawing.ClipOverrunsRequest | libs/PewPew3.0/pew.py:132-144 | on a concrete copy with a negative destination offset and a requested width, the source's clipping copies a source column beyond the requested ones |
| Drawing.BlitClipWithin | libs/PewPew3.0/pew.py:132-147 | the corrected normalisation moves the corners as the source does, and the size is the requested one reduced by how far the corner moved, cut to what both buffers hold; corners end non-negative and the offset is preserved |
| Drawing.ClipWithinRequest | libs/PewPew3.0/pew.py:144-147 | the corrected clip stays inside both requested rectangles, and equals the source's clip whenever no corner was moved |
| Drawing.ClipWithinCovers | libs/PewPew3.0/pew.py:144-147 | a destination cell inside the requested destination rectangle whose source cell is inside the requested source rectangle and inside the source is copied by the corrected clip |
| Drawing.BlitWithin | libs/PewPew3.0/pew.py:130-168 | with the corrected clip, a pixel takes its source pixel exactly when it is inside the clipped rectangle and that source value is not the key, and otherwise keeps its value; so a pixel that changes lies inside the requested rectangle, every destination pixel of the requested rectangle whose source pixel exists and is not the key takes that source pixel, and a keyed source value never changes the destination |
| Drawing.WithinKeepsRequest | libs/PewPew3.0/pew.py:132-147 | on the copy that exposes the overrun, the corrected `blit` leaves the disputed column untouched |
| Glyphs.FontLayout | libs/PewPew3.0/pew.py:9-18 | the font table has 576 bytes, and glyph g's row r is byte 6g + r |
| Glyphs.Glyph | libs/PewPew3.0/pew.py:9-18 | glyph g is six stored bytes of `_FONT`, one per row |
| Glyphs.HasGlyph | libs/PewPew3.0/pew.py:87-89 | a character is drawn exactly when its code point is 0x20..0x7F |
| Glyphs.Unsalted | libs/PewPew3.0/pew.py:92 | `byte ^ _SALT` is glyph g's stored row byte XOR the salt, a value below 256 |
| Glyphs.PairAt | libs/PewPew3.0/pew.py:93-95 | after n rounds of `unsalted >>= 2`, `unsalted & 0x03` is pair n of the byte, u / 4ⁿ mod 4, a palette index below 4 |
| Glyphs.GlyphPair | libs/PewPew3.0/pew.py:91-95 | each glyph pixel selects one of the four palette entries, so `colors[unsalted & 0x03]` is always in range |
| Glyphs.FromTextCall | libs/PewPew3.0/pew.py:77-98 | `from_text(string, color, bgcolor, colors)` is 4·len wide and 6 high; an explicit `colors` is used as given; otherwise a given `color` draws with the palette (color, color, bgcolor, bgcolor); with neither, the variant's default palette is used |
| Glyphs.OneColourText | libs/PewPew3.0/pew.py:83-84 | with `color` given and no `colors`, every pixel is the colour, the background colour or 0 |
| Glyphs.Printed | libs/PewPew3.0/pew.py:86-89 | the characters that get drawn are at most the string's characters, each with a glyph; when every character has a glyph, all are drawn, in order |
| Glyphs.PrintedConcat | libs/PewPew3.0/pew.py:86-89 | the glyphs drawn for two pieces of text are those of the first piece followed by those of the second |
| Glyphs.DrawBits | libs/PewPew3.0/pew.py:93-95 | the column loop draws column c of the row in the colour of pair c of the unsalted byte, for the remaining columns inside the grid |
| Glyphs.DrawRows | libs/PewPew3.0/pew.py:90-96 | the row loop draws the remaining rows of the glyph four columns wide, each pixel in its pair's colour |
| Glyphs.DrawText | libs/PewPew3.0/pew.py:85-97 | the k-th character with a glyph occupies columns x+4k..x+4k+3; pixels outside the drawn glyphs are unchanged |
| Glyphs.FromText | libs/PewPew3.0/pew.py:77-98 | `from_text` is 4·len wide and 6 high; the drawn glyphs fill the left columns in their pairs' colours and the rest is 0 |
| Glyphs.SkippedCharacter | libs/PewPewLite2.0/pew.py:100-102 | a character without a glyph shifts the following text four columns left, and the last four columns stay 0 |
| Glyphs.SkippedAnywhere | libs/PewPew3.0/pew.py:86-89 | a character without a glyph anywhere in the string is dropped: the text renders as it would without that character, and the last four columns stay 0 |
| Glyphs.SpaceIsSolid | libs/PewPewLite2.0/pew.py:9 | every pixel of the space glyph selects palette entry 3 |
| Glyphs.SpaceRendersEntry3 | libs/PewPewLite2.0/pew.py:104-108 | " " renders as a 4×6 block of palette entry 3 |
| Glyphs.GoldenA | libs/PewPew3.0/pew.py:77-98 | the letter 'A' drawn with palette (1, 2, 3, 0) has the expected 4×6 pixels |
| PewPew3.Brightness | libs/PewPew3.0/pew.py:33-35 | the intensity is 0 exactly for levels up to -1, 255 exactly from level 15, and 16·(level+1) in between |
| PewPew3.Palette | libs/PewPew3.0/pew.py:8 | entries 2c and 2c+1 are colour c's two LED channels: for colours 0..3 channel b is 0xFF exactly when bit b of c is set, colours 5..7 are the same mixes at 0x44, and colour 4 is both channels at 0x11 |
| PewPew3.BrightnessMonotone | libs/PewPew3.0/pew.py:34 | a higher level is never dimmer |
| PewPew3.DrawColumn | libs/PewPew3.0/pew.py:45-49 | after k row iterations, the frame holds the two palette bytes of rows 0..k-1 at offsets 8-r and 16-r; byte 0 is untouched |
| PewPew3.FrameA | libs/PewPew3.0/pew.py:43-49 | frame x starts with 16·x and holds each row's two palette bytes at offsets 8-r and 16-r |
| PewPew3.FrameIgnoresStaging | libs/PewPew3.0/pew.py:44-49 | every byte of a frame is overwritten, so the staging buffer's previous contents do not matter |
| PewPew3.Frames | libs/PewPew3.0/pew.py:42-50 | frames written from column x on, with the buffer carried between them, are each column's own frame |
| PewPew3.Show | libs/PewPew3.0/pew.py:38-50 | `show` writes eight 17-byte frames; frame x starts with 16·x, and for the colour c of the raw byte at 7-x+r·width (pixel (7-x, r) when the buffer is at least 8 wide) it has `_PALETTE[2c]` at 8-r and `_PALETTE[2c+1]` at 16-r |
| PewPew3.ShowReadsImage | libs/PewPew3.0/pew.py:39-47 | on a buffer at least 8×8, the bytes `show` reads lie inside the buffer and frame x row r reads pixel (7-x, r) |
| PewPew3.DarkFrameByte | libs/PewPew3.0/pew.py:44-49 | a column that reads colour 0 throughout gives a frame of the column select and zeros |
| PewPew3.BlankShow | libs/PewPew3.0/pew.py:38-50 | an all-zero 8×8 image gives frames `[16·x]` followed by sixteen zeros |
| PewPew3.DefaultColors | libs/PewPew3.0/pew.py:82 | the default palette draws pair 3 in the background colour, and with a background below 8 all four entries are colours the 3.0 palette has |
| PewPew3.DefaultTextShowable | libs/PewPew3.0/pew.py:82 | text in the default palette on a background below 8 uses only colours the 3.0 palette has |
| PewPewLite.Brightness | libs/PewPewLite2.0/pew.py:31-35 | the command byte is in 0xE0..0xEF and congruent to the level modulo 16 |
| PewPewLite.BrightnessWraps | libs/PewPewLite2.0/pew.py:34 | two levels give the same command exactly when they agree modulo 16 |
| PewPewLite.WordBytes | libs/PewPewLite2.0/pew.py:51-52 | a 16-bit word's low byte is its first eight bits and `b >> 8` its last eight |
| PewPewLite.LowByte | libs/PewPewLite2.0/pew.py:51 | the byte stored from `b` is the number formed by the word's low eight bits |
| PewPewLite.HighByte | libs/PewPewLite2.0/pew.py:52 | `b >> 8` is the number formed by the word's high eight bits |
| PewPewLite.SetRow | libs/PewPewLite2.0/pew.py:47-50 | one row iteration sets bit 15-y when the colour's bit 0 is set and bit y when its bit 1 is set, and no other bit |
| PewPewLite.ColumnWord | libs/PewPewLite2.0/pew.py:44-50 | after k rows, bit 15-y is set exactly when row y < k has colour bit 0, and bit y exactly when it has colour bit 1 |
| PewPewLite.Columns | libs/PewPewLite2.0/pew.py:43-52 | after k columns, column x's low byte is at 15-2x and its high byte at 16-2x; byte 0 is untouched |
| PewPewLite.PlaceWord | libs/PewPewLite2.0/pew.py:51-52 | one column iteration writes column k-1's two bytes at offsets 17-2k and 18-2k and leaves the command byte and the earlier columns' bytes as they were |
| PewPewLite.PlaceWords | libs/PewPewLite2.0/pew.py:43-52 | after k column iterations, column x's low byte is at 15-2x and its high byte at 16-2x; byte 0 is untouched |
| PewPewLite.Show | libs/PewPewLite2.0/pew.py:38-53 | the frame is 17 bytes: a zero command byte, then column x's word low byte at 15-2x and high byte at 16-2x |
| PewPewLite.ShowPixels | libs/PewPewLite2.0/pew.py:43-52 | bit 7-y of byte 16-2x is bit 0 of the colour seen at (x, y), and bit y of byte 15-2x is its bit 1 |
| PewPewLite.WordDigits | libs/PewPewLite2.0/pew.py:45-50 | each row's two colour bits can be read back from the finished word's two bytes |
| PewPewLite.FrameSlot | libs/PewPewLite2.0/pew.py:51-52 | every byte after the command byte is the low or high byte of one column's word |
| PewPewLite.SameWordsSameFrame | libs/PewPewLite2.0/pew.py:42-52 | frames whose column words agree are equal, whatever the staging buffers held |
| PewPewLite.LowBits | libs/PewPewLite2.0/pew.py:47-49 | colours equal modulo 4 have the same bit 0 and bit 1 |
| PewPewLite.SameBitsSameWord | libs/PewPewLite2.0/pew.py:45-50 | column words depend on the colours only through their two low bits |
| PewPewLite.ShowReadsTwoBits | libs/PewPewLite2.0/pew.py:43-52 | images whose visible colours agree modulo 4 give the same frame |
| PewPewLite.DarkColumn | libs/PewPewLite2.0/pew.py:44-52 | a column whose colours are all multiples of 4 gives a word with both bytes zero |
| PewPewLite.DarkShow | libs/PewPewLite2.0/pew.py:38-53 | a window whose colours are all multiples of 4 shows as seventeen zero bytes |
| PewPewLite.ShowOffscreen | libs/PewPewLite2.0/pew.py:124-126 | an image moved entirely off the 8×8 display reads as 0 everywhere and shows as seventeen zero bytes |
| PewPewLite.BlankShow | libs/PewPewLite2.0/pew.py:42-52 | an all-zero image shows as seventeen zero bytes at every offset |
| PewPewLite.ReadKeys | libs/PewPewLite2.0/pew.py:65-71 | the mask is the little-endian two-byte value shifted right by five, below 2048; power-off happens exactly when the high byte is 7 and the low byte is at least 0xE0, that is, mask 0b111111 |
| PewPewLite.DefaultColors | libs/PewPewLite2.0/pew.py:95 | the default palette draws pairs 2 and 3 in the background colour, and with a background below 4 every entry is a colour with a `__str__` symbol |
| PewPewLite.SpaceIsBackground | libs/PewPewLite2.0/pew.py:95 | with the default palette, " " is a solid 4×6 block of the background colour |
| PewPewLite.DefaultTextRenders | libs/PewPewLite2.0/pew.py:95 | text in the default palette on a background below 4 always has a `__str__` picture |
| Debug.Symbol | libs/PewPew3.0/pew.py:173 | colour c is drawn as entry c of `('.', '+', '*', '@')`, never a newline |
| Debug.Code | libs/PewPew3.0/pew.py:173 | a character stands for colour c exactly when it is the symbol `('.', '+', '*', '@')[c]` |
| Debug.Row | libs/PewPew3.0/pew.py:172-175 | the inner join has one character per column, the symbol of that pixel's colour |
| Debug.Rows | libs/PewPew3.0/pew.py:171-177 | one line per row, each as wide as the buffer, line y column x the symbol of pixel (x, y) |
| Debug.Join | libs/PewPew3.0/pew.py:171 | `"\n".join(lines)` starts with the first line and is as long as the lines together plus one newline between each two |
| Debug.Render | libs/PewPew3.0/pew.py:170-177 | `str(pix)` fails exactly when some pixel's colour is 4 or more |
| Debug.SplitJoin | libs/PewPewLite2.0/pew.py:174 | joining newline-free lines with "\n" and splitting on "\n" gives the lines back |
| Debug.RenderLines | libs/PewPewLite2.0/pew.py:173-180 | the picture has `height` lines of `width` characters, pixel (x, y) at line y column x |
| Debug.Unrender | libs/PewPew3.0/pew.py:101-110 | reading a picture back through `from_iter` gives a buffer with one row per line and only colours that have a symbol |
| Debug.RenderRoundTrip | libs/PewPew3.0/pew.py:170-177 | for a buffer with at least one row and colours below 4, reading back its picture gives an equal buffer |

## Left out

- A caller-supplied `buffer` argument to `Pix(width, height, buffer)` is not modelled: every `Pix` owns exactly `width*height` bytes (`Pix.Valid`), and two buffers never share storage, so writes through one `Pix` are never seen through another.
- The constructor's defaults `width=8, height=8` are not modelled: `Pixels.New` always takes both sizes.
- `init()` in both files is left out: the I²C bus set-up, controller initialisation, the `SLICES` probe and button pin set-up are hardware plumbing.
- Bus traffic is left out: every `_i2c.writeto` and `readfrom_into`. The model computes the bytes written and consumes the bytes read.
- `_register` in 3.0 is left out: its page-select sequence and the register read at the start of `show` are bus protocol. `PewPew3.Brightness` models only the value written.
- `tick` and the 10 ms key debounce in Lite `keys` are left out, because they depend on the clock. `PewPewLite.ReadKeys` models a fresh read.
- `sys.exit()` in Lite `keys` becomes the `PowerOff` result.
- 3.0 `keys` calls `samd.get_buttons()`, which is foreign code, so it is not modelled.
- The 3.0 `blit` fast path with slices (`key is None and SLICES`) is not modelled separately. `blit` has the per-pixel loop's semantics. The two differ when the effective width is negative and the height positive.
- A `blit` of a buffer onto itself with overlapping rectangles is not modelled: the model always reads the unmodified source.
- Lite `from_iter` has no `return` statement, so it returns `None`. `Pixels.FromIter` models the buffer it builds, which is what the 3.0 version returns.
- `from_iter` with an empty `lines` raises `IndexError` in the source. Here that is the precondition `|lines| > 0`. Rows are modelled as sequences of integers, not arbitrary iterables.
- Colours that are not integers, such as a `None` entry in `colors`, are not modelled.
- Some source calls raise; the model states these as preconditions, not error results:
  - 3.0 `show` on a buffer whose reads leave the buffer, or that meets a colour of 8 or more (`PewPew3.Showable`);
  - `box` with a non-empty rectangle on a buffer with no cells (`Drawing.BoxWritable`).
- Debug.RenderRoundTrip: requires at least one row. A buffer with no rows renders as "", and "" splits into one empty line.
- Debug.Unrender: it is the model's own decoder for `__str__` output, not a function of the source. It goes through `Pixels.FromIter`.

## Findings

| source | as written | input that shows it | evidently intended | confidence | as-written member | corrected member |
|---|---|---|---|---|---|---|
| libs/PewPew3.0/pew.py:132-147 (and libs/PewPewLite2.0/pew.py:145-160) | a negative `dx` (or `x`) moves the other corner by the overhang, but the requested `width`/`height` is not reduced by it | `blit(src, dx=-2, width=4)` of an 8-wide source onto a 4-wide buffer: destination column 2 receives source column 4, outside the requested columns 0..3 | copy only the part of the requested rectangle that lands on the destination, so the size shrinks by the overhang | medium, not executed | Drawing.ClipOverrunsRequest | Drawing.BlitClipWithin, Drawing.ClipWithinRequest, Drawing.BlitWithin |

=== FILE: debug.dfy ===
/**
 * `Pix.__str__`: the text picture of a buffer, one line per row joined by
 * newlines, each cell drawn as '.', '+', '*' or '@' for colours 0 to 3.
 * A colour of 4 or more has no symbol and pew.py's tuple lookup fails;
 * the model returns `None` for such a buffer. `Unrender` reads a picture
 * back into a buffer, so the rendering can be shown to lose nothing.
 */
module Debug {
  import opened Optional
  import opened Pixels

  /** The symbol drawn for colour `c`: entry `c` of the tuple `('.', '+', '*', '@')`. */
  function Symbol(c: int): (ch: char)
    requires 0 <= c < 4
    ensures ch == ".+*@"[c]
    ensures ch != '\n'
  {
    if c == 0 then '.' else if c == 1 then '+' else if c == 2 then '*' else '@'
  }

  /** The colour a symbol stands for, if `ch` is one of the four symbols. */
  function Code(ch: char): (r: Option<nat>)
    ensures r.Some? ==> r.value < 4 && Symbol(r.value) == ch
    ensures forall c :: 0 <= c < 4 && Symbol(c) == ch ==> r == Some(c)
  {
    if ch == '.' then Some(0)
    else if ch == '+' then Some(1)
    else if ch == '*' then Some(2)
    else if ch == '@' then Some(3)
    else None
  }

  /** Every cell of the grid holds a colour that has a symbol. */
  predicate Printable(p: Pix)
    requires p.Valid()
  {
    forall x, y | 0 <= x < p.width && 0 <= y < p.height :: Get(p, x, y) < 4
  }

  /** The first `k` characters of row `y`'s line: the inner `"".join(...)`. */
  function Row(p: Pix, y: int, k: nat): (s: string)
    requires p.Valid() && Printable(p) && 0 <= y < p.height && k <= p.width
    ensures |s| == k
    ensures forall x :: 0 <= x < k ==> s[x] == Symbol(Get(p, x, y))
  {
    if k == 0 then ""
    else Row(p, y, k - 1) + [Symbol(Get(p, k - 1, y))]
  }

  /** The lines of the first `k` rows, row 0 first. */
  function Rows(p: Pix, k: nat): (ls: seq<string>)
    requires p.Valid() && Printable(p) && k <= p.height
    ensures |ls| == k
    ensures forall y :: 0 <= y < k ==> |ls[y]| == p.width
    ensures forall y, x :: 0 <= y < k && 0 <= x < p.width ==> ls[y][x] == Symbol(Get(p, x, y))
  {
    if k == 0 then []
    else Rows(p, k - 1) + [Row(p, k - 1, p.width)]
  }

  /** The total length of the lines. */
  function Lengths(ls: seq<string>): nat {
    if ls == [] then 0 else |ls[0]| + Lengths(ls[1..])
  }

  /** `"\n".join(lines)`: the lines with one newline between each two. */
  function Join(ls: seq<string>): (s: string)
    ensures |ls| >= 1 ==> |s| == Lengths(ls) + |ls| - 1
    ensures |ls| >= 1 ==> s[..|ls[0]|] == ls[0]
  {
    if |ls| == 0 then ""
    else if |ls| == 1 then ls[0]
    else ls[0] + "\n" + Join(ls[1..])
  }

  /** The position of the first newline in `s` at or after `from`, or `|s|` if there is none. */
  function NewlineAt(s: string, from: nat): (i: nat)
    requires from <= |s|
    decreases |s| - from
    ensures from <= i <= |s|
    ensures i < |s| ==> s[i] == '\n'
    ensures forall j :: from <= j < i ==> s[j] != '\n'
  {
    if from == |s| || s[from] == '\n' then from else NewlineAt(s, from + 1)
  }

  /** `s.split("\n")`: the pieces between newlines; the empty string is one empty line. */
  function Split(s: string): (ls: seq<string>)
    decreases |s|
    ensures |ls| >= 1
  {
    var i := NewlineAt(s, 0);
    if i == |s| then [s] else [s[..i]] + Split(s[i + 1..])
  }

  /** `str(pix)`: the picture, or `None` when some cell has no symbol. */
  function Render(p: Pix): (r: Option<string>)
    requires p.Valid()
    ensures r.None? <==> exists x, y :: InBounds(p, x, y) && Get(p, x, y) >= 4
  {
    if Printable(p) then Some(Join(Rows(p, p.height))) else None
  }

  /** Every character of every line is a symbol. */
  predicate Decodable(ls: seq<string>) {
    forall y, x :: 0 <= y < |ls| && 0 <= x < |ls[y]| ==> Code(ls[y][x]).Some?
  }

  /** The colours the lines of a picture stand for. */
  function Codes(ls: seq<string>): (cs: seq<seq<int>>)
    requires Decodable(ls)
    ensures |cs| == |ls|
    ensures forall y :: 0 <= y < |ls| ==> |cs[y]| == |ls[y]|
    ensures forall y, x :: 0 <= y < |ls| && 0 <= x < |ls[y]| ==> 0 <= cs[y][x] < 4 && Symbol(cs[y][x]) == ls[y][x]
  {
    if ls == [] then []
    else Codes(ls[..|ls| - 1]) + [CodesOf(ls[|ls| - 1])]
  }

  function CodesOf(line: string): (cs: seq<int>)
    requires forall x :: 0 <= x < |line| ==> Code(line[x]).Some?
    ensures |cs| == |line|
    ensures forall x :: 0 <= x < |line| ==> 0 <= cs[x] < 4 && Symbol(cs[x]) == line[x]
  {
    if line == [] then []
    else CodesOf(line[..|line| - 1]) + [Code(line[|line| - 1]).value]
  }

  /**
   * Reads a picture back: the buffer `Pix.from_iter` builds from its lines'
   * colours, or `None` if a character other than a symbol or a newline occurs.
   */
  function Unrender(s: string): (r: Option<Pix>)
    ensures r.Some? ==> r.value.Valid() && r.value.height == |Split(s)| && Printable(r.value)
  {
    var ls := Split(s);
    if Decodable(ls) then
      var p := FromIter(Codes(ls));
      assert Printable(p) by {
        forall x, y | 0 <= x < p.width && 0 <= y < p.height
          ensures Get(p, x, y) < 4
        {
        }
      }
      Some(p)
    else None
  }

  /** Joining lines that hold no newline and splitting the result gives the lines back. */
  lemma {:induction false} SplitJoin(ls: seq<string>)
    requires |ls| >= 1
    requires forall k, j :: 0 <= k < |ls| && 0 <= j < |ls[k]| ==> ls[k][j] != '\n'
    ensures Split(Join(ls)) == ls
  {
    var s := Join(ls);
    var i := NewlineAt(s, 0);
    if |ls| == 1 {
      assert s == ls[0];
      assert forall j :: 0 <= j < |s| ==> s[j] == ls[0][j];
    } else {
      var a, rest := ls[0], Join(ls[1..]);
      assert s == a + "\n" + rest;
      assert s[|a|] == '\n';
      assert forall j :: 0 <= j < |a| ==> s[j] == a[j];
      assert i == |a|;
      assert s[..i] == a;
      assert s[i + 1..] == rest;
      SplitJoin(ls[1..]);
      assert ls == [a] + ls[1..];
    }
  }

  /** The picture's lines: one per row, each as wide as the buffer, cell (x, y) at line y, column x. */
  lemma RenderLines(p: Pix)
    requires p.Valid() && Render(p).Some? && p.height >= 1
    ensures |Split(Render(p).value)| == p.height
    ensures forall y :: 0 <= y < p.height ==> |Split(Render(p).value)[y]| == p.width
    ensures forall y, x :: 0 <= y < p.height && 0 <= x < p.width ==>
                           Split(Render(p).value)[y][x] == Symbol(Get(p, x, y))
  {
    var ls := Rows(p, p.height);
    forall k, j | 0 <= k < |ls| && 0 <= j < |ls[k]|
      ensures ls[k][j] != '\n'
    {
      assert ls[k][j] == Symbol(Get(p, j, k));
    }
    SplitJoin(ls);
  }

  /** Rendering loses nothing: reading a buffer's picture back gives the same buffer. */
  lemma RenderRoundTrip(p: Pix)
    requires p.Valid() && Render(p).Some? && p.height >= 1
    ensures Unrender(Render(p).value) == Some(p)
  {
    var ls := Split(Render(p).value);
    RenderLines(p);
    assert Decodable(ls) by {
      forall y, x | 0 <= y < |ls| && 0 <= x < |ls[y]|
        ensures Code(ls[y][x]).Some?
      {
        assert ls[y][x] == Symbol(Get(p, x, y));
      }
    }
    var q := FromIter(Codes(ls));
    forall x, y
      ensures Get(q, x, y) == Get(p, x, y)
    {
      if InBounds(p, x, y) {
        assert Symbol(Codes(ls)[y][x]) == Symbol(Get(p, x, y));
      }
    }
    Extensionality(q, p);
  }
}

=== FILE: drawing.dfy ===
/**
 * Rectangle fill (`Pix.box`) and clipped copy with colour key (`Pix.blit`).
 * Both work on raw buffer indices as pew.py does; the clamping and
 * clipping are what keep every index inside the buffer.
 */
module Drawing {
  import opened Optional
  import opened Grid
  import opened Pixels

  function Min(a: int, b: int): int { if a < b then a else b }
  function Max(a: int, b: int): int { if a < b then b else a }

  /** Python's `v or d` for an optional size: `None` and 0 both fall back to `d`. */
  function OrDefault(v: Option<int>, d: int): (r: int)
    ensures r == d || (v == Some(r) && r != 0)
    ensures v.Some? && v.value != 0 ==> r == v.value
  {
    if v.None? || v.value == 0 then d else v.value
  }

  /** A rectangle with its top-left corner at (x, y). */
  datatype Rect = Rect(x: int, y: int, w: int, h: int)

  predicate InRect(r: Rect, i: int, j: int) {
    r.x <= i < r.x + r.w && r.y <= j < r.y + r.h
  }

  // ---------------------------------------------------------------- box

  /**
   * The rectangle `box` fills after clamping: the corner is clamped into
   * the grid and the size into what remains of it (never negative).
   */
  function BoxRect(p: Pix, x: int, y: int, width: Option<int>, height: Option<int>): (r: Rect)
    ensures r.w >= 0 && r.h >= 0
    ensures p.width > 0 ==> 0 <= r.x < p.width && r.x + r.w <= p.width
    ensures p.height > 0 ==> 0 <= r.y < p.height && r.y + r.h <= p.height
    ensures p.width > 0 ==> (0 <= x < p.width ==> r.x == x) && (x < 0 ==> r.x == 0) && (x >= p.width ==> r.x == p.width - 1)
    ensures p.height > 0 ==> (0 <= y < p.height ==> r.y == y) && (y < 0 ==> r.y == 0) && (y >= p.height ==> r.y == p.height - 1)
    ensures width.Some? && 0 < width.value && r.x + width.value <= p.width ==> r.w == width.value
    ensures height.Some? && 0 < height.value && r.y + height.value <= p.height ==> r.h == height.value
    ensures width.None? && p.width > 0 ==> r.w == p.width - r.x
    ensures height.None? && p.height > 0 ==> r.h == p.height - r.y
    ensures p.width > 0 && width.Some? && r.x + width.value > p.width ==> r.w == p.width - r.x
    ensures p.height > 0 && height.Some? && r.y + height.value > p.height ==> r.h == p.height - r.y
    ensures width.Some? && width.value < 0 ==> r.w == 0
    ensures height.Some? && height.value < 0 ==> r.h == 0
  {
    var cx := Min(Max(x, 0), p.width - 1);
    var cy := Min(Max(y, 0), p.height - 1);
    Rect(cx, cy,
         Max(0, Min(OrDefault(width, p.width), p.width - cx)),
         Max(0, Min(OrDefault(height, p.height), p.height - cy)))
  }

  /**
   * `box` writes nothing out of range: either the clamped rectangle is empty
   * or the buffer has cells. (On a buffer with no cells a non-empty
   * rectangle indexes an empty `bytearray` and pew.py raises.)
   */
  predicate BoxWritable(p: Pix, r: Rect) {
    r.w == 0 || r.h == 0 || (p.width > 0 && p.height > 0)
  }

  /** The inner loop of `box`: `n` consecutive buffer bytes from `xx` set to `color`. */
  function FillRun(p: Pix, xx: int, n: nat, color: int): (r: Pix)
    requires p.Valid() && 0 <= xx && xx + n <= |p.cells|
    decreases n
    ensures r.Valid() && r.width == p.width && r.height == p.height
    ensures forall k :: 0 <= k < |r.cells| ==>
                          r.cells[k] == if xx <= k < xx + n then Store(color) else p.cells[k]
  {
    if n == 0 then p
    else FillRun(Pix(p.width, p.height, p.cells[xx := Store(color)]), xx + 1, n - 1, color)
  }

  /** The outer loop of `box`: rows `y` up to `yEnd` filled over columns [x, x + w). */
  function FillRows(p: Pix, x: nat, y: nat, yEnd: int, w: nat, color: int): (r: Pix)
    requires p.Valid() && x + w <= p.width && yEnd <= p.height
    decreases yEnd - y
    ensures r.Valid() && r.width == p.width && r.height == p.height
    ensures forall i, j ::
              Get(r, i, j) == if y <= j < yEnd && x <= i < x + w then Store(color) else Get(p, i, j)
  {
    if y >= yEnd then p
    else
      RowBound(p.width, p.height, x, y, w);
      var q := FillRun(p, Index(p.width, x, y), w, color);
      assert forall i, j ::
               Get(q, i, j) == if j == y && x <= i < x + w then Store(color) else Get(p, i, j) by {
        forall i, j | InBounds(p, i, j)
          ensures Get(q, i, j) == if j == y && x <= i < x + w then Store(color) else Get(p, i, j)
        {
          IndexBound(p.width, p.height, i, j);
          RowSpan(p.width, x, y, w, i, j);
        }
      }
      FillRows(q, x, y + 1, yEnd, w, color)
  }

  /**
   * `box(color, x, y, width, height)`: exactly the cells of the clamped
   * rectangle take `color`; every other cell keeps its value.
   */
  function Box(p: Pix, color: int, x: int, y: int, width: Option<int>, height: Option<int>): (r: Pix)
    requires p.Valid() && BoxWritable(p, BoxRect(p, x, y, width, height))
    ensures r.Valid() && r.width == p.width && r.height == p.height
    ensures forall i, j ::
              Get(r, i, j) == if InRect(BoxRect(p, x, y, width, height), i, j) then Store(color) else Get(p, i, j)
  {
    var b := BoxRect(p, x, y, width, height);
    if b.w == 0 || b.h == 0 then p
    else FillRows(p, b.x, b.y, b.y + b.h, b.w, color)
  }

  /** `box` never writes outside the grid, whatever the requested rectangle. */
  lemma BoxStaysInside(p: Pix, color: int, x: int, y: int, width: Option<int>, height: Option<int>, i: int, j: int)
    requires p.Valid() && BoxWritable(p, BoxRect(p, x, y, width, height))
    requires InRect(BoxRect(p, x, y, width, height), i, j)
    ensures InBounds(p, i, j)
  {
  }

  /**
   * A missing or zero width/height means "to the edge of the buffer" from
   * the clamped corner; a negative one fills nothing.
   */
  lemma BoxSizeDefaults(p: Pix, color: int, x: int, y: int, width: Option<int>, height: Option<int>)
    requires p.Valid() && p.width > 0 && p.height > 0
    ensures var b := BoxRect(p, x, y, width, height);
            (OrDefault(width, 0) == 0 ==> b.x + b.w == p.width)
            && (OrDefault(height, 0) == 0 ==> b.y + b.h == p.height)
    ensures (width.Some? && width.value < 0) || (height.Some? && height.value < 0) ==>
              Box(p, color, x, y, width, height) == p
  {
    if (width.Some? && width.value < 0) || (height.Some? && height.value < 0) {
      Extensionality(Box(p, color, x, y, width, height), p);
    }
  }

  // --------------------------------------------------------------- blit

  /** The clipped copy `blit` performs: destination corner, source corner, size. */
  datatype Clip = Clip(dx: int, dy: int, x: int, y: int, w: int, h: int)

  /**
   * `blit`'s normalisation: a negative destination offset moves the source
   * corner instead and vice versa, then the size is cut to what both
   * buffers hold. The offset between source and destination is preserved.
   */
  function BlitClip(dst: Pix, src: Pix, dx: int, dy: int, x: int, y: int,
                    width: Option<int>, height: Option<int>): (c: Clip)
    ensures c.dx >= 0 && c.dy >= 0 && c.x >= 0 && c.y >= 0
    ensures c.w <= src.width - c.x && c.w <= dst.width - c.dx
    ensures c.h <= src.height - c.y && c.h <= dst.height - c.dy
    ensures c.dx - c.x == dx - x && c.dy - c.y == dy - y
    ensures c.w <= OrDefault(width, src.width) && c.h <= OrDefault(height, src.height)
    ensures c.dx == Max(Max(dx, 0), dx - x) && c.dy == Max(Max(dy, 0), dy - y)
    ensures c.w == OrDefault(width, src.width) || c.w == src.width - c.x || c.w == dst.width - c.dx
    ensures c.h == OrDefault(height, src.height) || c.h == src.height - c.y || c.h == dst.height - c.dy
  {
    var (x1, dx1) := if dx < 0 then (x - dx, 0) else (x, dx);
    var (x2, dx2) := if x1 < 0 then (0, dx1 - x1) else (x1, dx1);
    var (y1, dy1) := if dy < 0 then (y - dy, 0) else (y, dy);
    var (y2, dy2) := if y1 < 0 then (0, dy1 - y1) else (y1, dy1);
    Clip(dx2, dy2, x2, y2,
         Min(Min(OrDefault(width, src.width), src.width - x2), dst.width - dx2),
         Min(Min(OrDefault(height, src.height), src.height - y2), dst.height - dy2))
  }

  /** `color != key`: with no key every colour is copied. */
  predicate Keyed(key: Option<int>, color: int): (b: bool)
    ensures key.None? ==> !b
    ensures key.Some? ==> (b <==> color == key.value)
  {
    key == Some(color)
  }

  /**
   * The inner copy loop of `blit`: `n` bytes read from the source at `xx`
   * and written to the destination at `dxx`, skipping bytes equal to `key`.
   */
  function CopyRun(dst: Pix, src: Pix, xx: int, dxx: int, n: nat, key: Option<int>): (r: Pix)
    requires dst.Valid() && 0 <= dxx && dxx + n <= |dst.cells|
    requires 0 <= xx && xx + n <= |src.cells|
    decreases n
    ensures r.Valid() && r.width == dst.width && r.height == dst.height
    ensures forall k :: 0 <= k < |r.cells| ==>
                          r.cells[k] ==
                            if dxx <= k < dxx + n && !Keyed(key, src.cells[k - dxx + xx])
                            then src.cells[k - dxx + xx] else dst.cells[k]
  {
    if n == 0 then dst
    else
      var color := src.cells[xx];
      var d := if !Keyed(key, color) then Pix(dst.width, dst.height, dst.cells[dxx := color]) else dst;
      CopyRun(d, src, xx + 1, dxx + 1, n - 1, key)
  }

  /**
   * The source cell a destination cell (i, j) is copied from, for a copy
   * whose destination corner (dx, dy) shows the source cell (x, y).
   */
  function SourceCell(src: Pix, dx: int, dy: int, x: int, y: int, i: int, j: int): Byte
    requires src.Valid()
  {
    Get(src, i - dx + x, j - dy + y)
  }

  /** One pass of the inner copy loop, seen cell by cell: it copies row `dy` only. */
  lemma CopyRowCell(dst: Pix, src: Pix, dx: nat, dy: nat, x: nat, y: nat, w: nat, key: Option<int>, i: int, j: int)
    requires dst.Valid() && src.Valid()
    requires x + w <= src.width && dx + w <= dst.width
    requires y < src.height && dy < dst.height
    requires 0 <= Index(src.width, x, y) && Index(src.width, x, y) + w <= |src.cells|
    requires 0 <= Index(dst.width, dx, dy) && Index(dst.width, dx, dy) + w <= |dst.cells|
    ensures var q := CopyRun(dst, src, Index(src.width, x, y), Index(dst.width, dx, dy), w, key);
            Get(q, i, j) ==
              if j == dy && dx <= i < dx + w && !Keyed(key, SourceCell(src, dx, dy, x, y, i, j))
              then SourceCell(src, dx, dy, x, y, i, j) else Get(dst, i, j)
  {
    var q := CopyRun(dst, src, Index(src.width, x, y), Index(dst.width, dx, dy), w, key);
    if InBounds(dst, i, j) {
      IndexBound(dst.width, dst.height, i, j);
      RowSpan(dst.width, dx, dy, w, i, j);
      if j == dy && dx <= i < dx + w {
        IndexBound(src.width, src.height, i - dx + x, y);
        assert Index(dst.width, i, j) - Index(dst.width, dx, dy) + Index(src.width, x, y)
            == Index(src.width, i - dx + x, y);
      }
    }
  }

  /** The row loop of `blit`: `rows` rows of `w` cells each. */
  function CopyRows(dst: Pix, src: Pix, dx: nat, dy: nat, x: nat, y: nat,
                    rows: nat, w: nat, key: Option<int>): (r: Pix)
    requires dst.Valid() && src.Valid()
    requires x + w <= src.width && dx + w <= dst.width
    requires y + rows <= src.height && dy + rows <= dst.height
    decreases rows
    ensures r.Valid() && r.width == dst.width && r.height == dst.height
    ensures forall i, j ::
              Get(r, i, j) ==
                if dx <= i < dx + w && dy <= j < dy + rows && !Keyed(key, SourceCell(src, dx, dy, x, y, i, j))
                then SourceCell(src, dx, dy, x, y, i, j) else Get(dst, i, j)
  {
    if rows == 0 then dst
    else
      RowBound(src.width, src.height, x, y, w);
      RowBound(dst.width, dst.height, dx, dy, w);
      var q := CopyRun(dst, src, Index(src.width, x, y), Index(dst.width, dx, dy), w, key);
      assert forall i, j ::
               Get(q, i, j) ==
                 if j == dy && dx <= i < dx + w && !Keyed(key, SourceCell(src, dx, dy, x, y, i, j))
                 then SourceCell(src, dx, dy, x, y, i, j) else Get(dst, i, j) by {
        forall i, j {
          CopyRowCell(dst, src, dx, dy, x, y, w, key, i, j);
        }
      }
      CopyRows(q, src, dx, dy + 1, x, y + 1, rows - 1, w, key)
  }

  /**
   * `blit(source, dx, dy, x, y, width, height, key)`, per-pixel loop: each
   * destination cell inside the clipped rectangle takes the source cell at
   * the same offset unless that value equals `key`; all other cells keep
   * their value.
   */
  function Blit(dst: Pix, src: Pix, dx: int, dy: int, x: int, y: int,
                width: Option<int>, height: Option<int>, key: Option<int>): (r: Pix)
    requires dst.Valid() && src.Valid()
    ensures r.Valid() && r.width == dst.width && r.height == dst.height
    ensures var c := BlitClip(dst, src, dx, dy, x, y, width, height);
            forall i, j ::
              Get(r, i, j) ==
                if c.dx <= i < c.dx + c.w && c.dy <= j < c.dy + c.h
                   && !Keyed(key, SourceCell(src, dx, dy, x, y, i, j))
                then SourceCell(src, dx, dy, x, y, i, j) else Get(dst, i, j)
  {
    var c := BlitClip(dst, src, dx, dy, x, y, width, height);
    if c.w <= 0 || c.h <= 0 then dst
    else CopyRows(dst, src, c.dx, c.dy, c.x, c.y, c.h, c.w, key)
  }

  /**
   * Copying the same rectangle twice gives the same buffer as copying it
   * once, with or without a colour key.
   */
  lemma BlitIdempotent(dst: Pix, src: Pix, dx: int, dy: int, x: int, y: int,
                       width: Option<int>, height: Option<int>, key: Option<int>)
    requires dst.Valid() && src.Valid()
    ensures var once := Blit(dst, src, dx, dy, x, y, width, height, key);
            Blit(once, src, dx, dy, x, y, width, height, key) == once
  {
    var once := Blit(dst, src, dx, dy, x, y, width, height, key);
    var twice := Blit(once, src, dx, dy, x, y, width, height, key);
    assert BlitClip(once, src, dx, dy, x, y, width, height) == BlitClip(dst, src, dx, dy, x, y, width, height);
    Extensionality(twice, once);
  }

  /**
   * A copy placed entirely past the right or bottom edge of the destination,
   * or taken from past the source's edge, changes nothing.
   */
  lemma BlitOffscreen(dst: Pix, src: Pix, dx: int, dy: int, x: int, y: int,
                      width: Option<int>, height: Option<int>, key: Option<int>)
    requires dst.Valid() && src.Valid()
    requires dx >= dst.width || dy >= dst.height || x >= src.width || y >= src.height
    ensures Blit(dst, src, dx, dy, x, y, width, height, key) == dst
  {
  }

  /**
   * With a key, a destination cell whose source cell holds the key value is
   * left as it was, and so is every cell outside the clipped rectangle.
   */
  lemma BlitKeyTransparent(dst: Pix, src: Pix, dx: int, dy: int, x: int, y: int,
                           width: Option<int>, height: Option<int>, k: int, i: int, j: int)
    requires dst.Valid() && src.Valid()
    requires SourceCell(src, dx, dy, x, y, i, j) == k
             || !InRect(ClipRect(BlitClip(dst, src, dx, dy, x, y, width, height)), i, j)
    ensures Get(Blit(dst, src, dx, dy, x, y, width, height, Some(k)), i, j) == Get(dst, i, j)
  {
  }

  /** The destination rectangle of a clipped copy. */
  function ClipRect(c: Clip): Rect {
    Rect(c.dx, c.dy, c.w, c.h)
  }

  // ------------------------------------- blit clipping with a requested size

  /**
   * Shown on a concrete copy: with an explicit width and a negative
   * destination offset, `blit` moves the source corner right by the offset
   * but keeps the full width, so it copies source columns beyond the
   * requested ones. Here columns 0..3 of an eight-column source are
   * requested at dx = -2; destination column 2 receives source column 4.
   */
  lemma ClipOverrunsRequest()
    ensures var src := Pix(8, 1, [1, 2, 3, 4, 5, 6, 7, 8]);
            var c := BlitClip(New(4, 1), src, -2, 0, 0, 0, Some(4), None);
            c.x + c.w > 0 + 4
            && Get(Blit(New(4, 1), src, -2, 0, 0, 0, Some(4), None, None), 2, 0) == 5
  {
    var src := Pix(8, 1, [1, 2, 3, 4, 5, 6, 7, 8]);
    var dst := New(4, 1);
    assert BlitClip(dst, src, -2, 0, 0, 0, Some(4), None) == Clip(0, 0, 2, 0, 4, 1);
    assert Get(src, 4, 0) == src.cells[4];
    assert SourceCell(src, -2, 0, 0, 0, 2, 0) == 5;
  }

  /**
   * The normalisation with the requested size reduced by however far the
   * corners were moved: the copy then stays within the requested source
   * rectangle and the requested destination rectangle.
   */
  function BlitClipWithin(dst: Pix, src: Pix, dx: int, dy: int, x: int, y: int,
                          width: Option<int>, height: Option<int>): (c: Clip)
    ensures c.dx >= 0 && c.dy >= 0 && c.x >= 0 && c.y >= 0
    ensures c.w <= src.width - c.x && c.w <= dst.width - c.dx
    ensures c.h <= src.height - c.y && c.h <= dst.height - c.dy
    ensures c.dx - c.x == dx - x && c.dy - c.y == dy - y
    ensures c.dx == Max(Max(dx, 0), dx - x) && c.dy == Max(Max(dy, 0), dy - y)
    ensures c.w == OrDefault(width, src.width) - (c.x - x) || c.w == src.width - c.x || c.w == dst.width - c.dx
    ensures c.h == OrDefault(height, src.height) - (c.y - y) || c.h == src.height - c.y || c.h == dst.height - c.dy
  {
    var (x1, dx1, sx1) := if dx < 0 then (x - dx, 0, -dx) else (x, dx, 0);
    var (x2, dx2, sx2) := if x1 < 0 then (0, dx1 - x1, -x1) else (x1, dx1, 0);
    var (y1, dy1, sy1) := if dy < 0 then (y - dy, 0, -dy) else (y, dy, 0);
    var (y2, dy2, sy2) := if y1 < 0 then (0, dy1 - y1, -y1) else (y1, dy1, 0);
    Clip(dx2, dy2, x2, y2,
         Min(Min(OrDefault(width, src.width) - sx1 - sx2, src.width - x2), dst.width - dx2),
         Min(Min(OrDefault(height, src.height) - sy1 - sy2, src.height - y2), dst.height - dy2))
  }

  /**
   * The corrected normalisation copies only cells of the requested
   * rectangles, and coincides with pew.py's whenever no corner moved.
   */
  lemma ClipWithinRequest(dst: Pix, src: Pix, dx: int, dy: int, x: int, y: int,
                          width: Option<int>, height: Option<int>)
    ensures var c := BlitClipWithin(dst, src, dx, dy, x, y, width, height);
            && x <= c.x && c.x + c.w <= x + OrDefault(width, src.width)
            && dx <= c.dx && c.dx + c.w <= dx + OrDefault(width, src.width)
            && y <= c.y && c.y + c.h <= y + OrDefault(height, src.height)
            && dy <= c.dy && c.dy + c.h <= dy + OrDefault(height, src.height)
    ensures dx >= 0 && x >= 0 && dy >= 0 && y >= 0 ==>
              BlitClipWithin(dst, src, dx, dy, x, y, width, height) == BlitClip(dst, src, dx, dy, x, y, width, height)
  {
  }

  /** `blit` with the corrected normalisation; the copy loop is pew.py's. */
  function BlitWithin(dst: Pix, src: Pix, dx: int, dy: int, x: int, y: int,
                      width: Option<int>, height: Option<int>, key: Option<int>): (r: Pix)
    requires dst.Valid() && src.Valid()
    ensures r.Valid() && r.width == dst.width && r.height == dst.height
    ensures forall i, j ::
              Get(r, i, j) != Get(dst, i, j) ==>
                && x <= i - dx + x < x + OrDefault(width, src.width)
                && y <= j - dy + y < y + OrDefault(height, src.height)
                && Get(r, i, j) == SourceCell(src, dx, dy, x, y, i, j)
    ensures forall i, j ::
              && InBounds(dst, i, j) && InBounds(src, i - dx + x, j - dy + y)
              && dx <= i < dx + OrDefault(width, src.width)
              && dy <= j < dy + OrDefault(height, src.height)
              && !Keyed(key, SourceCell(src, dx, dy, x, y, i, j))
              ==> Get(r, i, j) == SourceCell(src, dx, dy, x, y, i, j)
    ensures forall i, j :: Keyed(key, SourceCell(src, dx, dy, x, y, i, j)) ==> Get(r, i, j) == Get(dst, i, j)
    ensures var c := BlitClipWithin(dst, src, dx, dy, x, y, width, height);
            forall i, j ::
              Get(r, i, j) ==
                if InRect(ClipRect(c), i, j) && !Keyed(key, SourceCell(src, dx, dy, x, y, i, j))
                then SourceCell(src, dx, dy, x, y, i, j) else Get(dst, i, j)
  {
    var c := BlitClipWithin(dst, src, dx, dy, x, y, width, height);
    var r := if c.w <= 0 || c.h <= 0 then dst
             else CopyRows(dst, src, c.dx, c.dy, c.x, c.y, c.h, c.w, key);
    WithinCells(dst, src, dx, dy, x, y, width, height, key, r);
    r
  }

  /** The cells a clipped copy changes, in terms of the requested rectangles. */
  lemma WithinCells(dst: Pix, src: Pix, dx: int, dy: int, x: int, y: int,
                    width: Option<int>, height: Option<int>, key: Option<int>, r: Pix)
    requires dst.Valid() && src.Valid() && r.Valid()
    requires var c := BlitClipWithin(dst, src, dx, dy, x, y, width, height);
             forall i, j ::
               Get(r, i, j) ==
                 if InRect(ClipRect(c), i, j) && !Keyed(key, SourceCell(src, dx, dy, x, y, i, j))
                 then SourceCell(src, dx, dy, x, y, i, j) else Get(dst, i, j)
    ensures forall i, j ::
              Get(r, i, j) != Get(dst, i, j) ==>
                && x <= i - dx + x < x + OrDefault(width, src.width)
                && y <= j - dy + y < y + OrDefault(height, src.height)
                && Get(r, i, j) == SourceCell(src, dx, dy, x, y, i, j)
    ensures forall i, j ::
              && InBounds(dst, i, j) && InBounds(src, i - dx + x, j - dy + y)
              && dx <= i < dx + OrDefault(width, src.width)
              && dy <= j < dy + OrDefault(height, src.height)
              && !Keyed(key, SourceCell(src, dx, dy, x, y, i, j))
              ==> Get(r, i, j) == SourceCell(src, dx, dy, x, y, i, j)
  {
    ClipWithinRequest(dst, src, dx, dy, x, y, width, height);
    forall i, j | && InBounds(dst, i, j) && InBounds(src, i - dx + x, j - dy + y)
                  && dx <= i < dx + OrDefault(width, src.width)
                  && dy <= j < dy + OrDefault(height, src.height)
      ensures InRect(ClipRect(BlitClipWithin(dst, src, dx, dy, x, y, width, height)), i, j)
    {
      ClipWithinCovers(dst, src, dx, dy, x, y, width, height, i, j);
    }
  }

  /**
   * A destination cell inside the requested destination rectangle whose
   * source cell lies inside the requested source rectangle and inside the
   * source is covered by the corrected clip.
   */
  lemma ClipWithinCovers(dst: Pix, src: Pix, dx: int, dy: int, x: int, y: int,
                         width: Option<int>, height: Option<int>, i: int, j: int)
    requires InBounds(dst, i, j) && InBounds(src, i - dx + x, j - dy + y)
    requires dx <= i < dx + OrDefault(width, src.width)
    requires dy <= j < dy + OrDefault(height, src.height)
    ensures InRect(ClipRect(BlitClipWithin(dst, src, dx, dy, x, y, width, height)), i, j)
  {
  }

  /** On the copy above, the corrected `blit` leaves destination column 2 alone. */
  lemma WithinKeepsRequest()
    ensures var src := Pix(8, 1, [1, 2, 3, 4, 5, 6, 7, 8]);
            Get(BlitWithin(New(4, 1), src, -2, 0, 0, 0, Some(4), None, None), 2, 0) == 0
  {
    var src := Pix(8, 1, [1, 2, 3, 4, 5, 6, 7, 8]);
    var dst := New(4, 1);
    assert OrDefault(Some(4), src.width) == 4;
    assert Get(dst, 2, 0) == 0;
  }
}

=== FILE: glyphs.dfy ===
/**
 * The salted, bit-packed 4×6 font and text rendering (`Pix.from_text`).
 * Glyph g (for code point 0x20 + g) occupies bytes 6g .. 6g+5, one per row;
 * a row byte XOR the salt holds the four columns' 2-bit palette indices,
 * least significant pair first.
 */
module Glyphs {
  import opened Optional
  import opened Pixels
  import opened Grid

  /**
   * The six stored row bytes of glyph `g`, the glyph for code point
   * 0x20 + g (the last case is glyph 95, code point 0x7F).
   */
  function Glyph(g: nat): (bytes: seq<bv8>)
    requires g < 96
    ensures |bytes| == 6
  {
    match g
    case 0  => [0x7B, 0x7B, 0x7B, 0x7B, 0x7B, 0x7B]  // 20 space
    case 1  => [0x77, 0x77, 0x73, 0x7B, 0x77, 0x7B]  // 21 !
    case 2  => [0x48, 0x59, 0x7B, 0x7B, 0x7B, 0x7B]  // 22 "
    case 3  => [0x59, 0x44, 0x59, 0x44, 0x59, 0x7B]  // 23 #
    case 4  => [0x73, 0x55, 0x74, 0x47, 0x55, 0x73]  // 24 $
    case 5  => [0x48, 0x5B, 0x77, 0x79, 0x48, 0x7B]  // 25 %
    case 6  => [0x75, 0x48, 0x67, 0x48, 0x45, 0x7B]  // 26 &
    case 7  => [0x77, 0x73, 0x7B, 0x7B, 0x7B, 0x7B]  // 27 '
    case 8  => [0x76, 0x79, 0x78, 0x79, 0x76, 0x7B]  // 28 (
    case 9  => [0x67, 0x5B, 0x4B, 0x5B, 0x67, 0x7B]  // 29 )
    case 10 => [0x7B, 0x5D, 0x66, 0x5D, 0x7B, 0x7B]  // 2A *
    case 11 => [0x7B, 0x77, 0x44, 0x77, 0x7B, 0x7B]  // 2B +
    case 12 => [0x7B, 0x7B, 0x7B, 0x77, 0x79, 0x7B]  // 2C ,
    case 13 => [0x7B, 0x7B, 0x44, 0x7B, 0x7B, 0x7B]  // 2D -
    case 14 => [0x7B, 0x7B, 0x7B, 0x7B, 0x77, 0x7B]  // 2E .
    case 15 => [0x4B, 0x5F, 0x77, 0x7D, 0x78, 0x7B]  // 2F /
    case 16 => [0x56, 0x48, 0x4C, 0x48, 0x65, 0x7B]  // 30 0
    case 17 => [0x77, 0x75, 0x77, 0x77, 0x77, 0x7B]  // 31 1
    case 18 => [0x60, 0x4B, 0x66, 0x79, 0x44, 0x7B]  // 32 2
    case 19 => [0x55, 0x4B, 0x67, 0x4B, 0x55, 0x7B]  // 33 3
    case 20 => [0x77, 0x7D, 0x58, 0x44, 0x4B, 0x7B]  // 34 4
    case 21 => [0x44, 0x78, 0x54, 0x4B, 0x54, 0x7B]  // 35 5
    case 22 => [0x56, 0x78, 0x55, 0x48, 0x55, 0x7B]  // 36 6
    case 23 => [0x44, 0x5B, 0x77, 0x79, 0x78, 0x7B]  // 37 7
    case 24 => [0x55, 0x48, 0x66, 0x48, 0x55, 0x7B]  // 38 8
    case 25 => [0x55, 0x48, 0x45, 0x4B, 0x65, 0x7B]  // 39 9
    case 26 => [0x7B, 0x77, 0x7B, 0x77, 0x7B, 0x7B]  // 3A :
    case 27 => [0x7B, 0x77, 0x7B, 0x77, 0x79, 0x7B]  // 3B ;
    case 28 => [0x4B, 0x77, 0x78, 0x77, 0x4B, 0x7B]  // 3C <
    case 29 => [0x7B, 0x44, 0x7B, 0x44, 0x7B, 0x7B]  // 3D =
    case 30 => [0x78, 0x77, 0x4B, 0x77, 0x78, 0x7B]  // 3E >
    case 31 => [0x65, 0x4B, 0x67, 0x7B, 0x77, 0x7B]  // 3F ?
    case 32 => [0x56, 0x49, 0x48, 0x79, 0x42, 0x7B]  // 40 @
    case 33 => [0x66, 0x59, 0x48, 0x40, 0x48, 0x7B]  // 41 A
    case 34 => [0x64, 0x48, 0x64, 0x48, 0x64, 0x7B]  // 42 B
    case 35 => [0x46, 0x79, 0x78, 0x79, 0x46, 0x7B]  // 43 C
    case 36 => [0x60, 0x58, 0x48, 0x58, 0x60, 0x7B]  // 44 D
    case 37 => [0x44, 0x78, 0x74, 0x78, 0x44, 0x7B]  // 45 E
    case 38 => [0x44, 0x78, 0x74, 0x78, 0x78, 0x7B]  // 46 F
    case 39 => [0x46, 0x79, 0x78, 0x49, 0x46, 0x7B]  // 47 G
    case 40 => [0x48, 0x48, 0x44, 0x48, 0x48, 0x7B]  // 48 H
    case 41 => [0x77, 0x77, 0x77, 0x77, 0x77, 0x7B]  // 49 I
    case 42 => [0x4B, 0x4B, 0x4B, 0x48, 0x55, 0x7B]  // 4A J
    case 43 => [0x48, 0x58, 0x70, 0x58, 0x48, 0x7B]  // 4B K
    case 44 => [0x78, 0x78, 0x78, 0x78, 0x44, 0x7B]  // 4C L
    case 45 => [0x59, 0x40, 0x44, 0x4C, 0x48, 0x7B]  // 4D M
    case 46 => [0x49, 0x4C, 0x40, 0x4C, 0x58, 0x7B]  // 4E N
    case 47 => [0x66, 0x59, 0x48, 0x59, 0x66, 0x7B]  // 4F O
    case 48 => [0x60, 0x48, 0x48, 0x60, 0x78, 0x7B]  // 50 P
    case 49 => [0x66, 0x59, 0x48, 0x49, 0x46, 0x7B]  // 51 Q
    case 50 => [0x60, 0x48, 0x48, 0x60, 0x48, 0x7B]  // 52 R
    case 51 => [0x55, 0x78, 0x55, 0x4B, 0x55, 0x7B]  // 53 S
    case 52 => [0x44, 0x77, 0x77, 0x77, 0x77, 0x7B]  // 54 T
    case 53 => [0x48, 0x48, 0x48, 0x49, 0x52, 0x7B]  // 55 U
    case 54 => [0x48, 0x48, 0x48, 0x5D, 0x77, 0x7B]  // 56 V
    case 55 => [0x48, 0x48, 0x4C, 0x44, 0x40, 0x7B]  // 57 W
    case 56 => [0x48, 0x59, 0x73, 0x59, 0x48, 0x7B]  // 58 X
    case 57 => [0x48, 0x59, 0x62, 0x77, 0x77, 0x7B]  // 59 Y
    case 58 => [0x44, 0x5B, 0x77, 0x79, 0x44, 0x7B]  // 5A Z
    case 59 => [0x74, 0x78, 0x78, 0x78, 0x74, 0x7B]  // 5B [
    case 60 => [0x78, 0x7D, 0x77, 0x5F, 0x4B, 0x7B]  // 5C \
    case 61 => [0x47, 0x4B, 0x4B, 0x4B, 0x47, 0x7B]  // 5D ]
    case 62 => [0x77, 0x4C, 0x59, 0x7B, 0x7B, 0x7B]  // 5E ^
    case 63 => [0x7B, 0x7B, 0x7B, 0x7B, 0x7B, 0x44]  // 5F _
    case 64 => [0x78, 0x73, 0x7B, 0x7B, 0x7B, 0x7B]  // 60 `
    case 65 => [0x7B, 0x42, 0x49, 0x49, 0x42, 0x7B]  // 61 a
    case 66 => [0x78, 0x60, 0x58, 0x58, 0x60, 0x7B]  // 62 b
    case 67 => [0x7B, 0x42, 0x79, 0x79, 0x42, 0x7B]  // 63 c
    case 68 => [0x4B, 0x42, 0x49, 0x49, 0x42, 0x7B]  // 64 d
    case 69 => [0x7B, 0x57, 0x49, 0x70, 0x46, 0x7B]  // 65 e
    case 70 => [0x4F, 0x77, 0x55, 0x77, 0x77, 0x77]  // 66 f
    case 71 => [0x7B, 0x60, 0x59, 0x42, 0x5B, 0x60]  // 67 g
    case 72 => [0x78, 0x60, 0x58, 0x48, 0x48, 0x7B]  // 68 h
    case 73 => [0x77, 0x7B, 0x76, 0x77, 0x63, 0x7B]  // 69 i
    case 74 => [0x4B, 0x7B, 0x4F, 0x4B, 0x48, 0x55]  // 6A j
    case 75 => [0x78, 0x48, 0x70, 0x58, 0x48, 0x7B]  // 6B k
    case 76 => [0x76, 0x77, 0x77, 0x73, 0x5F, 0x7B]  // 6C l
    case 77 => [0x7B, 0x64, 0x44, 0x40, 0x48, 0x7B]  // 6D m
    case 78 => [0x7B, 0x60, 0x58, 0x48, 0x48, 0x7B]  // 6E n
    case 79 => [0x7B, 0x66, 0x59, 0x59, 0x66, 0x7B]  // 6F o
    case 80 => [0x7B, 0x60, 0x58, 0x58, 0x60, 0x78]  // 70 p
    case 81 => [0x7B, 0x62, 0x59, 0x49, 0x42, 0x4B]  // 71 q
    case 82 => [0x7B, 0x49, 0x70, 0x78, 0x78, 0x7B]  // 72 r
    case 83 => [0x7B, 0x46, 0x7D, 0x5F, 0x64, 0x7B]  // 73 s
    case 84 => [0x77, 0x55, 0x77, 0x73, 0x5F, 0x7B]  // 74 t
    case 85 => [0x7B, 0x48, 0x48, 0x49, 0x56, 0x7B]  // 75 u
    case 86 => [0x7B, 0x48, 0x48, 0x5D, 0x73, 0x7B]  // 76 v
    case 87 => [0x7B, 0x48, 0x4C, 0x44, 0x40, 0x7B]  // 77 w
    case 88 => [0x7B, 0x48, 0x62, 0x62, 0x48, 0x7B]  // 78 x
    case 89 => [0x7B, 0x48, 0x48, 0x56, 0x5B, 0x61]  // 79 y
    case 90 => [0x7B, 0x44, 0x5F, 0x7D, 0x44, 0x7B]  // 7A z
    case 91 => [0x43, 0x77, 0x7C, 0x77, 0x43, 0x7B]  // 7B {
    case 92 => [0x77, 0x77, 0x77, 0x77, 0x77, 0x77]  // 7C |
    case 93 => [0x70, 0x77, 0x4F, 0x77, 0x70, 0x7B]  // 7D }
    case 94 => [0x57, 0x4B, 0x66, 0x78, 0x75, 0x7B]  // 7E ~
    case _  => [0x40, 0x59, 0x59, 0x59, 0x40, 0x7B]  // 7F DEL
  }

  /** The font table as stored: the glyphs' row bytes back to back. */
  const Font: seq<bv8> := FontBytes()

  function FontBytes(): seq<bv8> {
    seq(96 * 6, k requires 0 <= k < 96 * 6 => Glyph(k / 6)[k % 6])
  }

  /** The salt every font byte is XORed with. */
  const Salt: bv8 := 132

  /** Byte `row` of glyph `g` sits at offset 6g + row of the 576-byte table. */
  lemma FontLayout(g: nat, row: nat)
    requires g < 96 && row < 6
    ensures |Font| == 576
    ensures Font[g * 6 + row] == Glyph(g)[row]
  {
    assert (g * 6 + row) / 6 == g && (g * 6 + row) % 6 == row;
  }

  /** Code points 0x20..0x7F have a glyph; every other character has none. */
  predicate HasGlyph(c: char): (b: bool)
    ensures b <==> ' ' <= c && c as int <= 0x7F
  {
    0 <= c as int - 0x20 <= 95
  }

  function GlyphOf(c: char): (g: nat)
    requires HasGlyph(c)
    ensures g < 96
  {
    c as int - 0x20
  }

  /** The unsalted font byte for row `row` of glyph `g`. */
  function Unsalted(g: nat, row: nat): (u: nat)
    requires g < 96 && row < 6
    ensures u < 256
    ensures u == (Glyph(g)[row] ^ Salt) as nat
  {
    FontLayout(g, row);
    (Font[g * 6 + row] ^ Salt) as nat
  }

  /** 4 to the power `n`: a shift by `2n` bits. */
  function Pow4(n: nat): (r: nat)
    ensures r >= 1
  {
    if n == 0 then 1 else 4 * Pow4(n - 1)
  }

  /** Dividing by 4 and then by `d` is dividing by `4d`: two right shifts make one. */
  lemma QuarterThenDiv(u: nat, d: nat)
    requires d >= 1
    ensures u / 4 / d == u / (4 * d)
  {
    var q, a := u / 4, u / 4 / d;
    assert u == 4 * q + u % 4;
    assert q == a * d + q % d;
    assert u == a * (4 * d) + (4 * (q % d) + u % 4);
    DivUnique(u, 4 * d, a, 4 * (q % d) + u % 4);
  }

  /** The quotient is the one multiple that leaves a remainder below the divisor. */
  lemma DivUnique(n: int, d: int, a: int, r: int)
    requires d > 0 && n == a * d + r && 0 <= r < d
    ensures n / d == a
  {
    var q := n / d;
    assert n == q * d + n % d;
    if q > a {
      MulLeft(a + 1, q, d);
    } else if q < a {
      MulLeft(q + 1, a, d);
    }
  }

  /**
   * The `n`-th two-bit pair of `u` from the bottom, as `from_text` reaches
   * it: `u & 0x03` after `n` rounds of `u >>= 2`. On a non-negative value
   * `u >> 2m` is `u / 4^m` and `& 0x03` is `% 4`.
   */
  function PairAt(u: nat, n: nat): (k: nat)
    ensures k < 4
    ensures k == u / Pow4(n) % 4
  {
    if n == 0 then u % 4
    else
      QuarterThenDiv(u, Pow4(n - 1));
      PairAt(u / 4, n - 1)
  }

  /** The palette index (0..3) of column `col` in row `row` of glyph `g`. */
  function GlyphPair(g: nat, row: nat, col: nat): (k: nat)
    requires g < 96 && row < 6 && col < 4
    ensures k < 4
  {
    PairAt(Unsalted(g, row), col)
  }

  /** A four-entry palette: glyph pair value k is drawn in colour `At(k)`. */
  datatype Colors = Colors(c0: int, c1: int, c2: int, c3: int) {
    function At(k: nat): int
      requires k < 4
    {
      match k
      case 0 => c0
      case 1 => c1
      case 2 => c2
      case _ => c3
    }
  }

  /**
   * `from_text`'s colour choice: an explicit `colors` wins; otherwise a
   * given `color` paints pair values 0 and 1 and `bgcolor` values 2 and 3;
   * otherwise the variant's default palette applies.
   */
  function TextColors(color: Option<int>, bgcolor: int, colors: Option<Colors>, default: Colors): (r: Colors)
    ensures colors.Some? ==> r == colors.value
    ensures colors.None? && color.Some? ==> r == Colors(color.value, color.value, bgcolor, bgcolor)
    ensures colors.None? && color.None? ==> r == default
  {
    match colors
    case Some(cs) => cs
    case None =>
      match color
      case Some(c) => Colors(c, c, bgcolor, bgcolor)
      case None => default
  }

  /** The glyphs of the characters of `s` that have one, in order. */
  function Printed(s: string): (gs: seq<nat>)
    ensures |gs| <= |s|
    ensures forall k :: 0 <= k < |gs| ==> gs[k] < 96
    ensures (forall k :: 0 <= k < |s| ==> HasGlyph(s[k])) ==>
              |gs| == |s| && forall k :: 0 <= k < |s| ==> gs[k] == GlyphOf(s[k])
  {
    if s == [] then []
    else if HasGlyph(s[0]) then [GlyphOf(s[0])] + Printed(s[1..])
    else Printed(s[1..])
  }

  /**
   * The colour of pixel (i, j) of a line of glyphs `gs` set side by side
   * from x-offset `x`, four columns each.
   */
  function Lettering(gs: seq<nat>, colors: Colors, x: int, i: int, j: int): int
    requires x <= i < x + 4 * |gs| && 0 <= j < 6
    requires forall k :: 0 <= k < |gs| ==> gs[k] < 96
  {
    colors.At(GlyphPair(gs[(i - x) / 4], j, (i - x) % 4))
  }

  /**
   * The column loop of `from_text`: the remaining pairs of the unsalted row
   * byte `u`, from column `col` on, drawn at row `row` from x-offset `x`.
   */
  function DrawBits(p: Pix, u: nat, x: int, row: int, col: nat, colors: Colors): (r: Pix)
    requires p.Valid() && col <= 4
    decreases 4 - col
    ensures r.Valid() && r.width == p.width && r.height == p.height
    ensures forall i, j ::
              Get(r, i, j) ==
                if j == row && x + col <= i < x + 4 && InBounds(p, i, j)
                then Store(colors.At(PairAt(u, i - x - col))) else Get(p, i, j)
  {
    if col == 4 then p
    else DrawBits(Set(p, x + col, row, colors.At(u % 4)), u / 4, x, row, col + 1, colors)
  }

  /** The row loop of `from_text`: rows `row..5` of glyph `g` drawn at x-offset `x`. */
  function DrawRows(p: Pix, g: nat, x: int, row: nat, colors: Colors): (r: Pix)
    requires p.Valid() && g < 96 && row <= 6
    decreases 6 - row
    ensures r.Valid() && r.width == p.width && r.height == p.height
    ensures forall i, j ::
              Get(r, i, j) ==
                if row <= j < 6 && x <= i < x + 4 && InBounds(p, i, j)
                then Store(colors.At(GlyphPair(g, j, i - x))) else Get(p, i, j)
  {
    if row == 6 then p
    else DrawRows(DrawBits(p, Unsalted(g, row), x, row, 0, colors), g, x, row + 1, colors)
  }

  /** The line without its first glyph, drawn four columns further right, has the same pixels. */
  lemma LetteringShift(gs: seq<nat>, colors: Colors, x: int, i: int, j: int)
    requires x + 4 <= i < x + 4 * |gs| && 0 <= j < 6
    requires forall k :: 0 <= k < |gs| ==> gs[k] < 96
    ensures Lettering(gs, colors, x, i, j) == Lettering(gs[1..], colors, x + 4, i, j)
  {
    assert (i - x - 4) / 4 == (i - x) / 4 - 1 && (i - x - 4) % 4 == (i - x) % 4;
  }

  /**
   * The character loop of `from_text` from x-offset `x`: a character with a
   * glyph is drawn and advances `x` by 4; any other character is skipped
   * without advancing.
   */
  function DrawText(p: Pix, s: string, x: int, colors: Colors): (r: Pix)
    requires p.Valid()
    decreases |s|
    ensures r.Valid() && r.width == p.width && r.height == p.height
    ensures forall i, j ::
              Get(r, i, j) ==
                if 0 <= j < 6 && x <= i < x + 4 * |Printed(s)| && InBounds(p, i, j)
                then Store(Lettering(Printed(s), colors, x, i, j)) else Get(p, i, j)
  {
    if s == [] then p
    else if !HasGlyph(s[0]) then
      assert Printed(s) == Printed(s[1..]);
      DrawText(p, s[1..], x, colors)
    else
      var q := DrawRows(p, GlyphOf(s[0]), x, 0, colors);
      var r := DrawText(q, s[1..], x + 4, colors);
      DrawTextStep(p, s, x, colors, q, r);
      r
  }

  /** One step of the character loop: a glyph, then the rest of the line beside it. */
  lemma DrawTextStep(p: Pix, s: string, x: int, colors: Colors, q: Pix, r: Pix)
    requires p.Valid() && q.Valid() && r.Valid() && s != [] && HasGlyph(s[0])
    requires q.width == p.width && q.height == p.height
    requires forall i, j ::
               Get(q, i, j) ==
                 if 0 <= j < 6 && x <= i < x + 4 && InBounds(p, i, j)
                 then Store(colors.At(GlyphPair(GlyphOf(s[0]), j, i - x))) else Get(p, i, j)
    requires forall i, j ::
               Get(r, i, j) ==
                 if 0 <= j < 6 && x + 4 <= i < x + 4 + 4 * |Printed(s[1..])| && InBounds(q, i, j)
                 then Store(Lettering(Printed(s[1..]), colors, x + 4, i, j)) else Get(q, i, j)
    ensures forall i, j ::
              Get(r, i, j) ==
                if 0 <= j < 6 && x <= i < x + 4 * |Printed(s)| && InBounds(p, i, j)
                then Store(Lettering(Printed(s), colors, x, i, j)) else Get(p, i, j)
  {
    forall i, j
      ensures Get(r, i, j) ==
                if 0 <= j < 6 && x <= i < x + 4 * |Printed(s)| && InBounds(p, i, j)
                then Store(Lettering(Printed(s), colors, x, i, j)) else Get(p, i, j)
    {
      DrawTextCell(p, s, x, colors, q, r, i, j);
    }
  }

  /** One step of the character loop, seen cell by cell. */
  lemma DrawTextCell(p: Pix, s: string, x: int, colors: Colors, q: Pix, r: Pix, i: int, j: int)
    requires p.Valid() && q.Valid() && r.Valid() && s != [] && HasGlyph(s[0])
    requires q.width == p.width && q.height == p.height
    requires forall i, j ::
               Get(q, i, j) ==
                 if 0 <= j < 6 && x <= i < x + 4 && InBounds(p, i, j)
                 then Store(colors.At(GlyphPair(GlyphOf(s[0]), j, i - x))) else Get(p, i, j)
    requires Get(r, i, j) ==
               if 0 <= j < 6 && x + 4 <= i < x + 4 + 4 * |Printed(s[1..])| && InBounds(q, i, j)
               then Store(Lettering(Printed(s[1..]), colors, x + 4, i, j)) else Get(q, i, j)
    ensures Get(r, i, j) ==
              if 0 <= j < 6 && x <= i < x + 4 * |Printed(s)| && InBounds(p, i, j)
              then Store(Lettering(Printed(s), colors, x, i, j)) else Get(p, i, j)
  {
    assert Printed(s) == [GlyphOf(s[0])] + Printed(s[1..]);
    if 0 <= j < 6 && x + 4 <= i < x + 4 * |Printed(s)| {
      LetteringShift(Printed(s), colors, x, i, j);
      assert Printed(s)[1..] == Printed(s[1..]);
    } else if 0 <= j < 6 && x <= i < x + 4 {
      assert (i - x) / 4 == 0 && (i - x) % 4 == i - x;
    }
  }

  /**
   * `Pix.from_text(string, colors=...)`: a (4·len)×6 buffer in which the
   * k-th character that has a glyph occupies columns 4k..4k+3, each pixel
   * drawn in the palette colour its glyph pair selects; columns no glyph
   * reached (one group of four per skipped character, at the right) stay 0.
   */
  function FromText(s: string, colors: Colors): (r: Pix)
    ensures r.Valid() && r.width == 4 * |s| && r.height == 6
    ensures forall i, j ::
              Get(r, i, j) ==
                if 0 <= j < 6 && 0 <= i < 4 * |Printed(s)|
                then Store(Lettering(Printed(s), colors, 0, i, j)) else 0
  {
    DrawText(New(4 * |s|, 6), s, 0, colors)
  }

  /**
   * `Pix.from_text(string, color, bgcolor, colors)` of a variant whose own
   * palette is `default`: the text drawn in the colours `TextColors` picks.
   */
  function FromTextCall(s: string, color: Option<int>, bgcolor: int, colors: Option<Colors>, default: Colors): (r: Pix)
    ensures r.Valid() && r.width == 4 * |s| && r.height == 6
    ensures colors.Some? ==> r == FromText(s, colors.value)
    ensures colors.None? && color.Some? ==> r == FromText(s, Colors(color.value, color.value, bgcolor, bgcolor))
    ensures colors.None? && color.None? ==> r == FromText(s, default)
  {
    FromText(s, TextColors(color, bgcolor, colors, default))
  }

  /**
   * With a single `color` and no `colors`, the text is two-tone: every pixel
   * is the colour, the background, or 0 where a skipped character left a gap.
   */
  lemma OneColourText(s: string, c: int, bgcolor: int, default: Colors, i: int, j: int)
    ensures var v := Get(FromTextCall(s, Some(c), bgcolor, None, default), i, j);
            v == Store(c) || v == Store(bgcolor) || v == 0
  {
    var cs := Colors(c, c, bgcolor, bgcolor);
    if 0 <= j < 6 && 0 <= i < 4 * |Printed(s)| {
      var k := GlyphPair(Printed(s)[i / 4], j, i % 4);
      assert Lettering(Printed(s), cs, 0, i, j) == cs.At(k);
    }
  }

  /**
   * A character without a glyph is dropped: the text that follows it is
   * drawn four columns further left than it otherwise would be, and the
   * last four columns stay blank.
   */
  lemma SkippedCharacter(c: char, s: string, colors: Colors, i: int, j: int)
    requires !HasGlyph(c)
    ensures Get(FromText([c] + s, colors), i, j) ==
              if i < 4 * |s| then Get(FromText(s, colors), i, j) else 0
  {
    assert ([c] + s)[1..] == s;
  }

  /** The glyphs drawn for two pieces of text are those of each piece, in order. */
  lemma {:induction false} PrintedConcat(a: string, b: string)
    ensures Printed(a + b) == Printed(a) + Printed(b)
  {
    if a == [] {
      assert a + b == b;
    } else {
      assert (a + b)[0] == a[0];
      assert (a + b)[1..] == a[1..] + b;
      PrintedConcat(a[1..], b);
    }
  }

  /**
   * A character without a glyph anywhere in the text is dropped: the text
   * renders as if it were absent, and the last four columns stay blank.
   */
  lemma SkippedAnywhere(a: string, c: char, b: string, colors: Colors, i: int, j: int)
    requires !HasGlyph(c)
    ensures Get(FromText(a + [c] + b, colors), i, j) ==
              if i < 4 * (|a| + |b|) then Get(FromText(a + b, colors), i, j) else 0
  {
    PrintedConcat(a, [c] + b);
    PrintedConcat(a, b);
    assert a + [c] + b == a + ([c] + b);
    assert Printed([c] + b) == Printed(b) by {
      assert ([c] + b)[1..] == b;
    }
    assert |Printed(a + b)| <= |a| + |b|;
  }

  /** Every pixel of the space glyph has pair value 3. */
  lemma SpaceIsSolid(row: nat, col: nat)
    requires row < 6 && col < 4
    ensures GlyphPair(GlyphOf(' '), row, col) == 3
  {
    assert Unsalted(0, row) == 0xFF;
    if col == 0 {
    } else if col == 1 {
    } else if col == 2 {
    } else {
      assert PairAt(0xFF, 3) == 3;
    }
  }

  /** A single space renders as a 4×6 block of palette entry 3. */
  lemma SpaceRendersEntry3(colors: Colors, i: int, j: int)
    requires 0 <= i < 4 && 0 <= j < 6
    ensures Get(FromText(" ", colors), i, j) == Store(colors.c3)
  {
    assert Printed(" ") == [GlyphOf(' ')];
    assert i / 4 == 0 && i % 4 == i;
    SpaceIsSolid(j, i);
  }

  /** Golden value: the glyph for 'A' drawn with the palette (1, 2, 3, 0), row by row. */
  lemma GoldenA(i: int, j: int)
    requires 0 <= i < 4 && 0 <= j < 6
    ensures Get(FromText("A", Colors(1, 2, 3, 0)), i, j) == GoldenARows()[j][i]
  {
    var cs := Colors(1, 2, 3, 0);
    assert Printed("A") == [33];
    assert i / 4 == 0 && i % 4 == i;
    GoldenAPair(i, j);
    assert Get(FromText("A", cs), i, j) == Store(cs.At(GlyphPair(33, j, i)));
  }

  lemma GoldenAPair(i: nat, j: nat)
    requires i < 4 && j < 6
    ensures Colors(1, 2, 3, 0).At(GlyphPair(33, j, i)) == GoldenARows()[j][i]
    ensures 0 <= GoldenARows()[j][i] < 4
  {
    assert Glyph(33) == [0x66, 0x59, 0x48, 0x40, 0x48, 0x7B];
    var u := Unsalted(33, j);
    if j == 0 {
      assert u == 0xE2;
    } else if j == 1 {
      assert u == 0xDD;
    } else if j == 2 {
      assert u == 0xCC;
    } else if j == 3 {
      assert u == 0xC4;
    } else if j == 4 {
      assert u == 0xCC;
    } else {
      assert u == 0xFF;
    }
  }

  /** The expected colours of 'A' under the palette (1, 2, 3, 0). */
  function GoldenARows(): (rows: seq<seq<int>>)
    ensures |rows| == 6 && forall j :: 0 <= j < 6 ==> |rows[j]| == 4
  {
    [[3, 1, 3, 0],
     [2, 0, 2, 0],
     [1, 0, 1, 0],
     [1, 2, 1, 0],
     [1, 0, 1, 0],
     [0, 0, 0, 0]]
  }
}

=== FILE: grid.dfy ===
/**
 * Row-major index arithmetic shared by every buffer in the model: cell
 * (x, y) of a `w`-wide grid lives at flat index `x + y * w`.
 */
module Grid {

  /** The flat index of cell (x, y) in a grid `w` cells wide. */
  function Index(w: int, x: int, y: int): int {
    x + y * w
  }

  lemma MulLeft(a: int, b: int, w: int)
    requires a <= b && w >= 0
    ensures a * w <= b * w
  {
    assert (b - a) * w >= 0;
  }

  /** An in-bounds cell has an index inside the buffer. */
  lemma IndexBound(w: int, h: int, x: int, y: int)
    requires 0 <= x < w && 0 <= y < h
    ensures 0 <= Index(w, x, y) < w * h
    ensures Index(w, x, y) + (w - x) <= w * h
  {
    MulLeft(y + 1, h, w);
    assert y * w >= 0 by { MulLeft(0, y, w); }
  }

  /** A row segment [x, x + n) of an existing row lies inside the buffer. */
  lemma RowBound(w: int, h: int, x: int, y: int, n: int)
    requires 0 <= x && 0 <= n && x + n <= w && 0 <= y < h
    ensures 0 <= Index(w, x, y) && Index(w, x, y) + n <= w * h
  {
    MulLeft(y + 1, h, w);
    MulLeft(0, y, w);
  }

  /**
   * A row segment [x, x + n) of row y, written as a range of flat indices,
   * contains exactly the cells of that row segment: nothing of another row.
   */
  lemma RowSpan(w: int, x: int, y: int, n: int, i: int, j: int)
    requires 0 <= x && 0 <= n && x + n <= w
    requires 0 <= y && 0 <= i < w && 0 <= j
    ensures Index(w, x, y) <= Index(w, i, j) < Index(w, x, y) + n
        <==> (j == y && x <= i < x + n)
  {
    if j < y {
      MulLeft(j + 1, y, w);
    } else if j > y {
      MulLeft(y + 1, j, w);
    }
  }

  /** Two in-bounds cells share an index only if they are the same cell. */
  lemma IndexInjective(w: int, x: int, y: int, i: int, j: int)
    requires 0 <= x < w && 0 <= i < w && 0 <= y && 0 <= j
    ensures Index(w, x, y) == Index(w, i, j) <==> x == i && y == j
  {
    RowSpan(w, x, y, 1, i, j);
  }

  /** Every flat index of a w×h buffer is the index of exactly one cell. */
  lemma Decompose(w: int, h: int, k: int)
    requires 0 <= k < w * h && w > 0
    ensures 0 <= k % w < w && 0 <= k / w < h
    ensures Index(w, k % w, k / w) == k
  {
    if k / w >= h {
      MulLeft(h, k / w, w);
    }
  }
}

=== FILE: option.dfy ===
/** Optional values: the model's stand-in for Python's `None` defaults. */
module Optional {

  datatype Option<+T> = None | Some(value: T)
}

=== FILE: pewpew3.dfy ===
/**
 * The PewPew 3.0 display encoder: `show` turns the top-left 8×8 of a `Pix`
 * into eight 17-byte frames of palette intensities, one per display column,
 * and `brightness` turns a level into the controller's global intensity.
 * Bus transfers and the controller's page/register protocol are not
 * modelled; these functions produce the bytes that would be written.
 */
module PewPew3 {
  import opened Optional
  import opened Grid
  import opened Pixels
  import Glyphs

  /**
   * `_PALETTE`: for colour c, entries 2c and 2c + 1 are the intensities of
   * the LED's two channels. For colours 0..3, channel b is fully on exactly
   * when bit b of c is set; colours 5..7 are the dim (0x44) versions of
   * 1..3, and colour 4 lights both channels at 0x11.
   */
  function Palette(k: int): (r: Byte)
    requires 0 <= k < 16
    ensures 0 <= k < 8 ==> r == if k / 2 / (k % 2 + 1) % 2 == 1 then 0xFF else 0x00
    ensures 10 <= k < 16 ==> r == if (k / 2 - 4) / (k % 2 + 1) % 2 == 1 then 0x44 else 0x00
    ensures k == 8 || k == 9 ==> r == 0x11
  {
    match k
    case 0 => 0x00 case 1 => 0x00 case 2 => 0xFF case 3 => 0x00
    case 4 => 0x00 case 5 => 0xFF case 6 => 0xFF case 7 => 0xFF
    case 8 => 0x11 case 9 => 0x11 case 10 => 0x44 case 11 => 0x00
    case 12 => 0x00 case 13 => 0x44 case 14 => 0x44 case _ => 0x44
  }

  // --------------------------------------------------------- brightness

  /**
   * The intensity `brightness(level)` writes to register 1 of page 3:
   * 16 steps of 16 from level -1 upwards, saturating at both ends.
   */
  function Brightness(level: int): (v: Byte)
    ensures v == 0 <==> level <= -1
    ensures v == 255 <==> level >= 15
    ensures 0 <= level < 15 ==> v == 16 * (level + 1)
  {
    var raw := level * 16 + 16;
    if raw < 0 then 0 else if raw > 255 then 255 else raw
  }

  /** A higher level is never dimmer. */
  lemma BrightnessMonotone(a: int, b: int)
    requires a <= b
    ensures Brightness(a) <= Brightness(b)
  {
  }

  // --------------------------------------------------------------- show

  /**
   * `show` reads buffer bytes 7 - x + r·width for x, r in 0..7, and looks
   * each up in the 16-byte palette: every read must be inside the buffer
   * and every colour read must be below 8, or pew.py raises.
   */
  predicate Showable(p: Pix) {
    && p.Valid()
    && 7 + 7 * p.width < |p.cells|
    && forall x, r :: 0 <= x < 8 && 0 <= r < 8 ==> ColumnColour(p, x, r) < 8
  }

  /** The byte `show` reads for row r of frame x: column 7 - x of row r. */
  function ColumnColour(p: Pix, x: int, r: int): Byte
    requires p.Valid() && 7 + 7 * p.width < |p.cells|
    requires 0 <= x < 8 && 0 <= r < 8
  {
    MulLeft(r, 7, p.width);
    MulLeft(0, r, p.width);
    p.cells[7 - x + r * p.width]
  }

  /**
   * The first `k` iterations of `show`'s row loop for frame `x`. Iteration
   * r is pew.py's `y = 7 - r`: it reads row r of image column 7 - x and
   * writes the colour's two palette bytes at offsets 8 - r and 16 - r.
   */
  function DrawColumn(p: Pix, buf: seq<Byte>, x: int, k: nat): (f: seq<Byte>)
    requires Showable(p) && 0 <= x < 8 && k <= 8 && |buf| == 17
    ensures |f| == 17 && f[0] == buf[0]
    ensures forall r :: 0 <= r < k ==>
                          && f[8 - r] == Palette(2 * ColumnColour(p, x, r))
                          && f[16 - r] == Palette(2 * ColumnColour(p, x, r) + 1)
  {
    if k == 0 then buf
    else
      var color := ColumnColour(p, x, k - 1);
      DrawColumn(p, buf, x, k - 1)[9 - k := Palette(2 * color)][17 - k := Palette(2 * color + 1)]
  }

  /**
   * Frame x of `show`: the staging buffer with byte 0 set to 16·x (the
   * column select) and then the column's sixteen intensity bytes.
   */
  function FrameA(p: Pix, x: int, buf: seq<Byte>): (f: seq<Byte>)
    requires Showable(p) && 0 <= x < 8 && |buf| == 17
    ensures |f| == 17 && f[0] == 16 * x
    ensures forall r :: 0 <= r < 8 ==>
                          && f[8 - r] == Palette(2 * ColumnColour(p, x, r))
                          && f[16 - r] == Palette(2 * ColumnColour(p, x, r) + 1)
  {
    DrawColumn(p, buf[0 := 16 * x], x, 8)
  }

  /** Every byte of a frame is overwritten: the staging buffer's old contents do not matter. */
  lemma FrameIgnoresStaging(p: Pix, x: int, b1: seq<Byte>, b2: seq<Byte>)
    requires Showable(p) && 0 <= x < 8 && |b1| == 17 && |b2| == 17
    ensures FrameA(p, x, b1) == FrameA(p, x, b2)
  {
    var f1, f2 := FrameA(p, x, b1), FrameA(p, x, b2);
    forall n | 0 <= n < 17
      ensures f1[n] == f2[n]
    {
      if 1 <= n <= 8 {
        var r := 8 - n;
        assert f1[8 - r] == Palette(2 * ColumnColour(p, x, r)) == f2[8 - r];
      } else if 9 <= n {
        var r := 16 - n;
        assert f1[16 - r] == Palette(2 * ColumnColour(p, x, r) + 1) == f2[16 - r];
      }
    }
  }

  /** The column loop of `show` from column `x` on, the staging buffer carried from frame to frame. */
  function Frames(p: Pix, buf: seq<Byte>, x: nat): (fs: seq<seq<Byte>>)
    requires Showable(p) && |buf| == 17 && x <= 8
    decreases 8 - x
    ensures |fs| == 8 - x
    ensures forall n :: 0 <= n < |fs| ==> fs[n] == FrameA(p, x + n, buf)
  {
    if x == 8 then []
    else
      var f := FrameA(p, x, buf);
      var rest := Frames(p, f, x + 1);
      forall n | 0 <= n < |rest|
        ensures rest[n] == FrameA(p, x + 1 + n, buf)
      {
        FrameIgnoresStaging(p, x + 1 + n, f, buf);
      }
      var fs := [f] + rest;
      forall n | 0 <= n < |fs|
        ensures fs[n] == FrameA(p, x + n, buf)
      {
        if n > 0 {
          assert fs[n] == rest[n - 1];
          assert x + 1 + (n - 1) == x + n;
        }
      }
      fs
  }

  /**
   * `show(pix)`: the eight frames written, in order. Frame x starts with
   * 16·x and, for row r of image column 7 - x holding colour c, has
   * `_PALETTE[2c]` at offset 8 - r and `_PALETTE[2c + 1]` at offset 16 - r.
   */
  function Show(p: Pix, staging: seq<Byte>): (fs: seq<seq<Byte>>)
    requires Showable(p) && |staging| == 17
    ensures |fs| == 8
    ensures forall x :: 0 <= x < 8 ==> |fs[x]| == 17 && fs[x][0] == 16 * x
    ensures forall x, r :: 0 <= x < 8 && 0 <= r < 8 ==>
                             && fs[x][8 - r] == Palette(2 * ColumnColour(p, x, r))
                             && fs[x][16 - r] == Palette(2 * ColumnColour(p, x, r) + 1)
  {
    var fs := Frames(p, staging, 0);
    forall x | 0 <= x < 8
      ensures fs[x] == FrameA(p, x, staging)
    {
    }
    forall x, r | 0 <= x < 8 && 0 <= r < 8
      ensures fs[x][8 - r] == Palette(2 * ColumnColour(p, x, r))
      ensures fs[x][16 - r] == Palette(2 * ColumnColour(p, x, r) + 1)
    {
      FramesCell(p, staging, x, r);
    }
    fs
  }

  /** One cell of `Show`'s contract, read off the frame it comes from. */
  lemma FramesCell(p: Pix, staging: seq<Byte>, x: int, r: int)
    requires Showable(p) && |staging| == 17 && 0 <= x < 8 && 0 <= r < 8
    ensures Frames(p, staging, 0)[x][8 - r] == Palette(2 * ColumnColour(p, x, r))
    ensures Frames(p, staging, 0)[x][16 - r] == Palette(2 * ColumnColour(p, x, r) + 1)
  {
    var f := Frames(p, staging, 0)[x];
    assert f == FrameA(p, x, staging);
  }

  /** On a buffer at least 8×8, frame x shows column 7 - x of the image, top row first. */
  lemma ShowReadsImage(p: Pix, x: int, r: int)
    requires p.Valid() && p.width >= 8 && p.height >= 8
    requires 0 <= x < 8 && 0 <= r < 8
    ensures 7 + 7 * p.width < |p.cells|
    ensures ColumnColour(p, x, r) == Get(p, 7 - x, r)
  {
    IndexBound(p.width, p.height, 7, 7);
    assert Index(p.width, 7 - x, r) == 7 - x + r * p.width;
  }

  /** An all-zero 8×8 image is showable, and every byte `show` reads from it is colour 0. */
  lemma BlankImage()
    ensures Showable(New(8, 8))
    ensures forall x, r :: 0 <= x < 8 && 0 <= r < 8 ==> ColumnColour(New(8, 8), x, r) == 0
  {
    var p := New(8, 8);
    forall x, r | 0 <= x < 8 && 0 <= r < 8
      ensures ColumnColour(p, x, r) == 0
    {
      ShowReadsImage(p, x, r);
    }
  }

  /** One byte of the frame of a column that reads colour 0 throughout: the column select, or zero. */
  lemma DarkFrameByte(p: Pix, staging: seq<Byte>, x: int, n: int)
    requires Showable(p) && |staging| == 17 && 0 <= x < 8 && 0 <= n < 17
    requires forall r :: 0 <= r < 8 ==> ColumnColour(p, x, r) == 0
    ensures Show(p, staging)[x][n] == if n == 0 then 16 * x else 0
  {
    var f := Show(p, staging)[x];
    if 1 <= n <= 8 {
      assert ColumnColour(p, x, 8 - n) == 0;
      assert f[n] == Palette(2 * ColumnColour(p, x, 8 - n));
      assert Palette(0) == 0;
    } else if 9 <= n {
      assert ColumnColour(p, x, 16 - n) == 0;
      assert f[n] == Palette(2 * ColumnColour(p, x, 16 - n) + 1);
      assert Palette(1) == 0;
    }
  }

  /** An all-zero 8×8 image gives frames that are the column select followed by sixteen zeros. */
  lemma BlankShow(staging: seq<Byte>, x: int)
    requires |staging| == 17 && 0 <= x < 8
    ensures Showable(New(8, 8))
    ensures Show(New(8, 8), staging)[x] == [16 * x] + seq(16, _ => 0)
  {
    BlankImage();
    var f := Show(New(8, 8), staging)[x];
    forall n | 0 <= n < 17
      ensures f[n] == if n == 0 then 16 * x else 0
    {
      DarkFrameByte(New(8, 8), staging, x, n);
    }
    SelectThenZeros(f, x);
  }

  lemma SelectThenZeros(f: seq<Byte>, x: int)
    requires |f| == 17 && forall n :: 0 <= n < 17 ==> f[n] == if n == 0 then 16 * x else 0
    ensures f == [16 * x] + seq(16, _ => 0)
  {
    var g := [16 * x] + seq(16, _ => 0);
    forall n | 1 <= n < 17
      ensures f[n] == g[n]
    {
      assert g[n] == seq(16, _ => 0)[n - 1];
    }
  }

  // ---------------------------------------------------------- from_text

  /** The 3.0 text palette when neither `color` nor `colors` is given. */
  function DefaultColors(bgcolor: int): (r: Glyphs.Colors)
    ensures r.At(3) == bgcolor
    ensures 0 <= bgcolor < 8 ==> forall k :: 0 <= k < 4 ==> 0 <= r.At(k) < 8
  {
    Glyphs.Colors(3, 7, 4, bgcolor)
  }

  /**
   * With the default palette and a background colour below 8, every cell
   * of rendered text is a colour `show` can look up.
   */
  lemma DefaultTextShowable(s: string, bgcolor: int, i: int, j: int)
    requires 0 <= bgcolor < 8
    ensures Get(Glyphs.FromTextCall(s, None, bgcolor, None, DefaultColors(bgcolor)), i, j) < 8
  {
    var cs := DefaultColors(bgcolor);
    var r := Glyphs.FromTextCall(s, None, bgcolor, None, cs);
    if 0 <= j < 6 && 0 <= i < 4 * |Glyphs.Printed(s)| {
      var k := Glyphs.GlyphPair(Glyphs.Printed(s)[i / 4], j, i % 4);
      assert Get(r, i, j) == Store(cs.At(k));
    }
  }
}

=== FILE: pewpewlite.dfy ===
/**
 * The PewPew Lite 2.0 display encoder and key decoder: `show` packs the
 * 8×8 window of a `Pix` seen through an offset into eight 16-bit column
 * words, `brightness` builds the dimming command, and `keys` turns the
 * two bytes read from the controller into a button mask (or the power-off
 * chord). Bus transfers are not modelled; these functions produce the
 * bytes that would be written and consume the bytes that would be read.
 */
module PewPewLite {
  import opened Optional
  import opened Pixels
  import Glyphs
  import Debug

  // --------------------------------------------------------- brightness

  /** The dimming command byte `brightness(level)` sends: 0xE0 with the level's low four bits. */
  function Brightness(level: int): (v: Byte)
    ensures 0xE0 <= v <= 0xEF
    ensures (v - level) % 16 == 0
  {
    (0xE0 as bv8 | (level % 16) as bv8) as int
  }

  /** Two levels give the same command exactly when they agree modulo 16. */
  lemma BrightnessWraps(a: int, b: int)
    ensures Brightness(a) == Brightness(b) <==> a % 16 == b % 16
  {
    var va, vb := Brightness(a), Brightness(b);
    assert va - 0xE0 == a % 16 by {
      assert (va - 0xE0 - a) % 16 == 0;
    }
    assert vb - 0xE0 == b % 16 by {
      assert (vb - 0xE0 - b) % 16 == 0;
    }
  }

  // --------------------------------------------------------------- show

  /** 2 to the power `n`. */
  function Pow2(n: nat): (r: nat)
    ensures r >= 1
  {
    if n == 0 then 1 else 2 * Pow2(n - 1)
  }

  /** The number whose binary digits, least significant first, are `bits`. */
  function Value(bits: seq<bool>): (n: nat)
    ensures n < Pow2(|bits|)
  {
    if bits == [] then 0 else (if bits[0] then 1 else 0) + 2 * Value(bits[1..])
  }

  /** Binary digit `i` of `n`: `(n >> i) & 1`. */
  predicate Digit(n: nat, i: nat) {
    if i == 0 then n % 2 == 1 else Digit(n / 2, i - 1)
  }

  /** Digit `i` of a number is the `i`-th of the bits it was built from. */
  lemma {:induction false} DigitOfValue(bits: seq<bool>, i: nat)
    requires i < |bits|
    ensures Digit(Value(bits), i) == bits[i]
  {
    if i > 0 {
      DigitOfValue(bits[1..], i - 1);
    }
  }

  /** The bits of `a + b` make `Value(a)` in the low digits and `Value(b)` above them. */
  lemma {:induction false} ValueSplit(a: seq<bool>, b: seq<bool>)
    ensures Value(a + b) == Value(a) + Pow2(|a|) * Value(b)
  {
    if a == [] {
      assert a + b == b;
    } else {
      var d, v, m := if a[0] then 1 else 0, Value(b), Pow2(|a| - 1);
      assert (a + b)[0] == a[0] && (a + b)[1..] == a[1..] + b;
      assert Value(a + b) == d + 2 * Value(a[1..] + b);
      ValueSplit(a[1..], b);
      Twice(m, v);
    }
  }

  lemma Twice(m: int, v: int)
    ensures (2 * m) * v == 2 * (m * v)
  {
  }

  /** A 16-bit word's low byte is its first eight bits and its high byte the last eight. */
  lemma WordBytes(w: seq<bool>)
    requires |w| == 16
    ensures Value(w) % 256 == Value(w[..8])
    ensures Value(w) / 256 == Value(w[8..])
  {
    assert w == w[..8] + w[8..];
    ValueSplit(w[..8], w[8..]);
    assert Pow2(8) == 256;
    DivMod256(Value(w[..8]), Value(w[8..]));
  }

  lemma DivMod256(lo: int, hi: int)
    requires 0 <= lo < 256
    ensures (lo + 256 * hi) % 256 == lo && (lo + 256 * hi) / 256 == hi
  {
  }

  /** `b` stored into the buffer: its low byte, the word's first eight bits. */
  function LowByte(w: seq<bool>): (r: Byte)
    requires |w| == 16
    ensures r == Value(w[..8])
  {
    WordBytes(w);
    Store(Value(w))
  }

  /** `b >> 8`: the high byte, the word's last eight bits. */
  function HighByte(w: seq<bool>): (r: Byte)
    requires |w| == 16
    ensures r == Value(w[8..])
  {
    WordBytes(w);
    assert Pow2(8) == 256;
    Value(w) / 256
  }

  /** The colour `show(image, dx, dy)` reads for LED (x, y): `image.pixel(x - dx, y - dy)`. */
  function Seen(p: Pix, x: int, y: int, dx: int, dy: int): Byte
    requires p.Valid()
  {
    Get(p, x - dx, y - dy)
  }

  /** `color & 0x01` on a colour byte. */
  predicate Bit0(c: Byte) {
    c % 2 == 1
  }

  /** `color & 0x02` on a colour byte. */
  predicate Bit1(c: Byte) {
    c / 2 % 2 == 1
  }

  /** A word with no bits set: `b = 0`. */
  function Unset(n: nat): (bits: seq<bool>)
    ensures |bits| == n && forall i :: 0 <= i < n ==> !bits[i]
  {
    if n == 0 then [] else [false] + Unset(n - 1)
  }

  /** The eight colours `show` reads for column x, row 0 first. */
  function Column(p: Pix, x: int, dx: int, dy: int): (cs: seq<Byte>)
    requires p.Valid()
    ensures |cs| == 8 && forall y :: 0 <= y < 8 ==> cs[y] == Seen(p, x, y, dx, dy)
  {
    seq(8, y => Seen(p, x, y, dx, dy))
  }

  /**
   * One iteration of `show`'s row loop: row y with colour `c` sets bit
   * 15 - y of the word when the colour's bit 0 is set, and bit y when its
   * bit 1 is.
   */
  function SetRow(b: seq<bool>, c: Byte, y: int): (w: seq<bool>)
    requires |b| == 16 && 0 <= y < 8
    ensures |w| == 16
    ensures w[15 - y] == (b[15 - y] || Bit0(c)) && w[y] == (b[y] || Bit1(c))
    ensures forall i :: 0 <= i < 16 && i != y && i != 15 - y ==> w[i] == b[i]
  {
    var b1 := if Bit0(c) then b[15 - y := true] else b;
    if Bit1(c) then b1[y := true] else b1
  }

  /**
   * The first `k` iterations of `show`'s row loop over a column's colours
   * `cs`, the word `b` held as its sixteen bits (least significant first):
   * row y's bit 0 lands in bit 15 - y and its bit 1 in bit y.
   */
  function ColumnWord(cs: seq<Byte>, k: nat): (w: seq<bool>)
    requires |cs| == 8 && k <= 8
    ensures |w| == 16
    ensures forall i :: 8 <= i < 16 ==> w[i] == (15 - i < k && Bit0(cs[15 - i]))
    ensures forall i :: 0 <= i < 8 ==> w[i] == (i < k && Bit1(cs[i]))
  {
    if k == 0 then Unset(16)
    else SetRow(ColumnWord(cs, k - 1), cs[k - 1], k - 1)
  }

  /** Column x's finished word `b`. */
  function Word(p: Pix, x: int, dx: int, dy: int): (w: seq<bool>)
    requires p.Valid()
    ensures |w| == 16
  {
    ColumnWord(Column(p, x, dx, dy), 8)
  }

  /** Column x's two frame bytes, `b % 256` and `b >> 8`, for the eight columns of the window. */
  function ColumnBytes(p: Pix, dx: int, dy: int): (bs: seq<(Byte, Byte)>)
    requires p.Valid()
    ensures |bs| == 8
    ensures forall x :: 0 <= x < 8 ==> bs[x] == (LowByte(Word(p, x, dx, dy)), HighByte(Word(p, x, dx, dy)))
  {
    seq(8, x requires 0 <= x < 8 => (LowByte(Word(p, x, dx, dy)), HighByte(Word(p, x, dx, dy))))
  }

  /**
   * The first `k` iterations of `show`'s column loop, given each column's
   * two bytes: column x's low byte goes to offset 15 - 2x and its high
   * byte to offset 16 - 2x.
   */
  function PlaceWords(buf: seq<Byte>, bs: seq<(Byte, Byte)>, k: nat): (f: seq<Byte>)
    requires |buf| == 17 && k <= |bs| <= 8
    ensures |f| == 17 && f[0] == buf[0]
    ensures forall x :: 0 <= x < k ==> f[15 - 2 * x] == bs[x].0 && f[16 - 2 * x] == bs[x].1
  {
    if k == 0 then buf
    else PlaceWord(PlaceWords(buf, bs, k - 1), k, bs[k - 1].0, bs[k - 1].1)
  }

  /** The first `k` iterations of `show`'s column loop on the image. */
  function Columns(p: Pix, buf: seq<Byte>, dx: int, dy: int, k: nat): (f: seq<Byte>)
    requires p.Valid() && k <= 8 && |buf| == 17
    ensures |f| == 17 && f[0] == buf[0]
    ensures forall x :: 0 <= x < k ==>
                          && f[15 - 2 * x] == Value(Word(p, x, dx, dy)[..8])
                          && f[16 - 2 * x] == Value(Word(p, x, dx, dy)[8..])
  {
    PlaceWords(buf, ColumnBytes(p, dx, dy), k)
  }

  /**
   * One iteration of the column loop: column k - 1's bytes go to offsets
   * 17 - 2k and 18 - 2k, leaving the command byte and the earlier columns'
   * bytes alone.
   */
  function PlaceWord(f0: seq<Byte>, k: nat, lo: Byte, hi: Byte): (f: seq<Byte>)
    requires |f0| == 17 && 1 <= k <= 8
    ensures |f| == 17 && f[0] == f0[0] && f[17 - 2 * k] == lo && f[18 - 2 * k] == hi
    ensures forall x :: 0 <= x < k - 1 ==> f[15 - 2 * x] == f0[15 - 2 * x] && f[16 - 2 * x] == f0[16 - 2 * x]
  {
    f0[17 - 2 * k := lo][18 - 2 * k := hi]
  }

  /** The frame `show(image, dx, dy)` writes: a zero command byte and the eight column words. */
  function Show(p: Pix, staging: seq<Byte>, dx: int, dy: int): (f: seq<Byte>)
    requires p.Valid() && |staging| == 17
    ensures |f| == 17 && f[0] == 0
    ensures forall x :: 0 <= x < 8 ==>
                          && f[15 - 2 * x] == Value(Word(p, x, dx, dy)[..8])
                          && f[16 - 2 * x] == Value(Word(p, x, dx, dy)[8..])
  {
    Columns(p, staging[0 := 0], dx, dy, 8)
  }

  /**
   * What the frame means: byte 16 - 2x holds bit 0 of column x's colours
   * with row 0 as its top bit, and byte 15 - 2x holds bit 1 with row 0 as
   * its bottom bit.
   */
  lemma ShowPixels(p: Pix, staging: seq<Byte>, dx: int, dy: int, x: int, y: int)
    requires p.Valid() && |staging| == 17 && 0 <= x < 8 && 0 <= y < 8
    ensures Digit(Show(p, staging, dx, dy)[16 - 2 * x], 7 - y) <==> Bit0(Seen(p, x, y, dx, dy))
    ensures Digit(Show(p, staging, dx, dy)[15 - 2 * x], y) <==> Bit1(Seen(p, x, y, dx, dy))
  {
    var cs := Column(p, x, dx, dy);
    assert Word(p, x, dx, dy) == ColumnWord(cs, 8);
    assert cs[y] == Seen(p, x, y, dx, dy);
    WordDigits(cs, y);
  }

  /** Row y's two colour bits, read back from the digits of the finished word's two bytes. */
  lemma WordDigits(cs: seq<Byte>, y: int)
    requires |cs| == 8 && 0 <= y < 8
    ensures Digit(Value(ColumnWord(cs, 8)[8..]), 7 - y) <==> Bit0(cs[y])
    ensures Digit(Value(ColumnWord(cs, 8)[..8]), y) <==> Bit1(cs[y])
  {
    var w := ColumnWord(cs, 8);
    assert w[15 - y] == Bit0(cs[y]);
    DigitOfValue(w[8..], 7 - y);
    DigitOfValue(w[..8], y);
  }

  /** Every byte after the command byte belongs to one column: the low or the high byte of its word. */
  lemma FrameSlot(n: int) returns (x: int)
    requires 0 < n < 17
    ensures 0 <= x < 8 && (n == 15 - 2 * x || n == 16 - 2 * x)
  {
    x := if n % 2 == 1 then (15 - n) / 2 else (16 - n) / 2;
  }

  /** Frames whose column words agree are equal, whatever the staging buffers held. */
  lemma SameWordsSameFrame(p: Pix, q: Pix, s1: seq<Byte>, s2: seq<Byte>, dx: int, dy: int, ex: int, ey: int)
    requires p.Valid() && q.Valid() && |s1| == 17 && |s2| == 17
    requires forall x :: 0 <= x < 8 ==> Word(p, x, dx, dy) == Word(q, x, ex, ey)
    ensures Show(p, s1, dx, dy) == Show(q, s2, ex, ey)
  {
    var fp, fq := Show(p, s1, dx, dy), Show(q, s2, ex, ey);
    forall n | 0 <= n < 17
      ensures fp[n] == fq[n]
    {
      if n > 0 {
        var x := FrameSlot(n);
        assert Word(p, x, dx, dy) == Word(q, x, ex, ey);
      }
    }
  }

  /** Colours equal modulo 4 have the same two low bits. */
  lemma LowBits(c: Byte, d: Byte)
    requires c % 4 == d % 4
    ensures Bit0(c) == Bit0(d) && Bit1(c) == Bit1(d)
  {
  }

  /**
   * Column words depend on the colours only through their low two bits:
   * columns whose first `k` colours agree in those bits build the same word.
   */
  lemma {:induction false} SameBitsSameWord(cs: seq<Byte>, ds: seq<Byte>, k: nat)
    requires |cs| == 8 && |ds| == 8 && k <= 8
    requires forall y :: 0 <= y < k ==> Bit0(cs[y]) == Bit0(ds[y]) && Bit1(cs[y]) == Bit1(ds[y])
    ensures ColumnWord(cs, k) == ColumnWord(ds, k)
  {
    if k > 0 {
      SameBitsSameWord(cs, ds, k - 1);
    }
  }

  /** Only the low two bits of each colour reach the display. */
  lemma ShowReadsTwoBits(p: Pix, q: Pix, staging: seq<Byte>, dx: int, dy: int)
    requires p.Valid() && q.Valid() && |staging| == 17
    requires forall x, y :: 0 <= x < 8 && 0 <= y < 8 ==> Seen(p, x, y, dx, dy) % 4 == Seen(q, x, y, dx, dy) % 4
    ensures Show(p, staging, dx, dy) == Show(q, staging, dx, dy)
  {
    forall x | 0 <= x < 8
      ensures Word(p, x, dx, dy) == Word(q, x, dx, dy)
    {
      var cs, ds := Column(p, x, dx, dy), Column(q, x, dx, dy);
      forall y | 0 <= y < 8
        ensures Bit0(cs[y]) == Bit0(ds[y]) && Bit1(cs[y]) == Bit1(ds[y])
      {
        LowBits(cs[y], ds[y]);
      }
      SameBitsSameWord(cs, ds, 8);
    }
    SameWordsSameFrame(p, q, staging, staging, dx, dy, dx, dy);
  }

  /** A column whose colours are all multiples of 4 builds a word with both bytes zero. */
  lemma DarkColumn(cs: seq<Byte>)
    requires |cs| == 8 && forall y :: 0 <= y < 8 ==> cs[y] % 4 == 0
    ensures Value(ColumnWord(cs, 8)[..8]) == 0 && Value(ColumnWord(cs, 8)[8..]) == 0
  {
    var w := ColumnWord(cs, 8);
    forall i | 0 <= i < 16
      ensures !w[i]
    {
      var y := if i < 8 then i else 15 - i;
      LowBits(cs[y], 0);
    }
    NoBitsZero(w[..8]);
    NoBitsZero(w[8..]);
  }

  /** A window in which every colour is a multiple of 4 shows as seventeen zero bytes. */
  lemma DarkShow(p: Pix, staging: seq<Byte>, dx: int, dy: int)
    requires p.Valid() && |staging| == 17
    requires forall x, y :: 0 <= x < 8 && 0 <= y < 8 ==> Seen(p, x, y, dx, dy) % 4 == 0
    ensures Show(p, staging, dx, dy) == seq(17, _ => 0)
  {
    var f := Show(p, staging, dx, dy);
    forall n | 0 <= n < 17
      ensures f[n] == 0
    {
      if n > 0 {
        var x := FrameSlot(n);
        DarkColumn(Column(p, x, dx, dy));
        assert Word(p, x, dx, dy) == ColumnWord(Column(p, x, dx, dy), 8);
      }
    }
  }

  /** A number with no bits set is zero. */
  lemma {:induction false} NoBitsZero(bits: seq<bool>)
    requires forall i :: 0 <= i < |bits| ==> !bits[i]
    ensures Value(bits) == 0
  {
    if bits != [] {
      NoBitsZero(bits[1..]);
    }
  }

  /** An image moved entirely off the display shows as a blank frame. */
  lemma ShowOffscreen(p: Pix, staging: seq<Byte>, dx: int, dy: int)
    requires p.Valid() && |staging| == 17
    requires dx >= 8 || dy >= 8 || dx + p.width <= 0 || dy + p.height <= 0
    ensures Show(p, staging, dx, dy) == seq(17, _ => 0)
  {
    forall x, y | 0 <= x < 8 && 0 <= y < 8
      ensures Seen(p, x, y, dx, dy) % 4 == 0
    {
      assert !InBounds(p, x - dx, y - dy);
    }
    DarkShow(p, staging, dx, dy);
  }

  /** An all-zero image shows as seventeen zero bytes, whatever the offset. */
  lemma BlankShow(width: nat, height: nat, staging: seq<Byte>, dx: int, dy: int)
    requires |staging| == 17
    ensures Show(New(width, height), staging, dx, dy) == seq(17, _ => 0)
  {
    DarkShow(New(width, height), staging, dx, dy);
  }

  // --------------------------------------------------------------- keys

  /** The button bits of the mask `keys()` returns. */
  const KeyX := 0x01
  const KeyDown := 0x02
  const KeyLeft := 0x04
  const KeyRight := 0x08
  const KeyUp := 0x10
  const KeyO := 0x20

  /** A key read: the button mask, or the all-six-buttons chord on which `keys()` exits the program. */
  datatype KeyRead = Keys(mask: int) | PowerOff

  /**
   * `keys()` after a fresh read of bytes `lo`, `hi`: the little-endian word
   * shifted right by five; the chord of all six buttons and nothing else
   * ends the program instead of returning.
   */
  function ReadKeys(lo: Byte, hi: Byte): (r: KeyRead)
    ensures r.PowerOff? <==> hi == 7 && lo >= 0xE0
    ensures r.Keys? ==> 0 <= r.mask < 2048 && r.mask * 32 <= lo + 256 * hi < r.mask * 32 + 32
  {
    var mask := (lo + 256 * hi) / 32;
    if mask == KeyX + KeyDown + KeyLeft + KeyRight + KeyUp + KeyO then PowerOff else Keys(mask)
  }

  // ---------------------------------------------------------- from_text

  /** The Lite text palette when neither `color` nor `colors` is given. */
  function DefaultColors(bgcolor: int): (r: Glyphs.Colors)
    ensures r.At(2) == bgcolor && r.At(3) == bgcolor
    ensures 0 <= bgcolor < 4 ==> forall k :: 0 <= k < 4 ==> 0 <= r.At(k) < 4
  {
    Glyphs.Colors(3, 2, bgcolor, bgcolor)
  }

  /** With the default palette, a space is a solid block of the background colour. */
  lemma SpaceIsBackground(bgcolor: int, i: int, j: int)
    requires 0 <= i < 4 && 0 <= j < 6
    ensures Get(Glyphs.FromTextCall(" ", None, bgcolor, None, DefaultColors(bgcolor)), i, j) == Store(bgcolor)
  {
    Glyphs.SpaceRendersEntry3(DefaultColors(bgcolor), i, j);
  }

  /**
   * With the default palette and a background colour below 4, rendered text
   * holds only colours that have a symbol, so its text picture exists.
   */
  lemma DefaultTextRenders(s: string, bgcolor: int)
    requires 0 <= bgcolor < 4
    ensures Debug.Render(Glyphs.FromTextCall(s, None, bgcolor, None, DefaultColors(bgcolor))).Some?
  {
    var cs := DefaultColors(bgcolor);
    var r := Glyphs.FromTextCall(s, None, bgcolor, None, cs);
    forall x, y | InBounds(r, x, y)
      ensures Get(r, x, y) < 4
    {
      if 0 <= y < 6 && 0 <= x < 4 * |Glyphs.Printed(s)| {
        var k := Glyphs.GlyphPair(Glyphs.Printed(s)[x / 4], y, x % 4);
        assert Get(r, x, y) == Store(cs.At(k));
      }
    }
  }
}

=== FILE: pixels.dfy ===
/**
 * The pixel buffer `Pix` shared by both hardware variants: a width×height
 * grid of byte-sized colour values stored row-major in one flat buffer.
 * Reads outside the grid yield 0 and writes outside it are ignored.
 */
module Pixels {
  import opened Grid

  /** One cell of the backing `bytearray`. */
  type Byte = b: int | 0 <= b < 256

  /**
   * The value a `bytearray` cell holds after `buffer[i] = c`: the runtime
   * keeps the low eight bits of the integer (two's complement for negatives).
   */
  function Store(c: int): (b: Byte)
    ensures 0 <= c < 256 ==> b == c
    ensures (c - b) % 256 == 0
  {
    c % 256
  }

  datatype Pix = Pix(width: nat, height: nat, cells: seq<Byte>) {
    /** The buffer holds exactly one byte per cell. */
    predicate Valid() {
      |cells| == width * height
    }
  }

  predicate InBounds(p: Pix, x: int, y: int) {
    0 <= x < p.width && 0 <= y < p.height
  }

  /** `Pix(width, height)`: a zero-filled buffer. */
  function New(width: nat, height: nat): (p: Pix)
    ensures p.Valid() && p.width == width && p.height == height
    ensures forall x, y :: Get(p, x, y) == 0
  {
    var p := Pix(width, height, seq(width * height, _ => 0));
    assert forall x, y :: Get(p, x, y) == 0 by {
      forall x, y | InBounds(p, x, y) ensures Get(p, x, y) == 0 {
        IndexBound(width, height, x, y);
        assert p.cells[Index(width, x, y)] == 0;
      }
    }
    p
  }

  /** `pixel(x, y)`: the colour at (x, y), or 0 outside the grid. */
  function Get(p: Pix, x: int, y: int): (v: Byte)
    requires p.Valid()
    ensures !InBounds(p, x, y) ==> v == 0
    ensures InBounds(p, x, y) ==> 0 <= Index(p.width, x, y) < |p.cells| && v == p.cells[Index(p.width, x, y)]
  {
    if InBounds(p, x, y) then
      IndexBound(p.width, p.height, x, y);
      p.cells[Index(p.width, x, y)]
    else 0
  }

  /**
   * `pixel(x, y, color)`: stores `color` at (x, y) when that cell exists;
   * an out-of-bounds write changes nothing.
   */
  function Set(p: Pix, x: int, y: int, color: int): (r: Pix)
    requires p.Valid()
    ensures r.Valid() && r.width == p.width && r.height == p.height
    ensures forall i, j ::
              Get(r, i, j) == if i == x && j == y && InBounds(p, x, y) then Store(color) else Get(p, i, j)
  {
    if InBounds(p, x, y) then
      IndexBound(p.width, p.height, x, y);
      var k := Index(p.width, x, y);
      var r := Pix(p.width, p.height, p.cells[k := Store(color)]);
      assert forall i, j ::
               Get(r, i, j) == if i == x && j == y then Store(color) else Get(p, i, j) by {
        forall i, j
          ensures Get(r, i, j) == if i == x && j == y then Store(color) else Get(p, i, j)
        {
          if InBounds(p, i, j) {
            IndexBound(p.width, p.height, i, j);
            IndexInjective(p.width, x, y, i, j);
            assert Get(r, i, j) == r.cells[Index(p.width, i, j)];
          }
        }
      }
      r
    else p
  }

  /** Two buffers of the same shape that agree on every cell are equal. */
  lemma Extensionality(p: Pix, q: Pix)
    requires p.Valid() && q.Valid()
    requires p.width == q.width && p.height == q.height
    requires forall x, y :: Get(p, x, y) == Get(q, x, y)
    ensures p == q
  {
    forall k | 0 <= k < |p.cells|
      ensures p.cells[k] == q.cells[k]
    {
      Decompose(p.width, p.height, k);
      assert Get(p, k % p.width, k / p.width) == Get(q, k % p.width, k / p.width);
    }
  }

  /** Pixel get/set laws: a set is read back and disturbs nothing else. */
  lemma GetAfterSet(p: Pix, x: int, y: int, color: int, i: int, j: int)
    requires p.Valid()
    ensures InBounds(p, x, y) ==> Get(Set(p, x, y, color), x, y) == Store(color)
    ensures (i, j) != (x, y) ==> Get(Set(p, x, y, color), i, j) == Get(p, i, j)
  {
  }

  /** An out-of-bounds pixel reads as 0 and writing it leaves the buffer as it was. */
  lemma OutOfBoundsPixel(p: Pix, x: int, y: int, color: int)
    requires p.Valid() && !InBounds(p, x, y)
    ensures Get(p, x, y) == 0
    ensures Set(p, x, y, color) == p
  {
  }

  /**
   * Writes `line[x..]` into row `y`, one `pixel(x, y, value)` per element
   * with `x` counting up; elements past the right edge are ignored.
   */
  function DrawLine(p: Pix, line: seq<int>, x: nat, y: int): (r: Pix)
    requires p.Valid() && x <= |line|
    decreases |line| - x
    ensures r.Valid() && r.width == p.width && r.height == p.height
    ensures forall i, j ::
              Get(r, i, j) == if j == y && x <= i < |line| && InBounds(p, i, j) then Store(line[i]) else Get(p, i, j)
  {
    if x == |line| then p
    else DrawLine(Set(p, x, y, line[x]), line, x + 1, y)
  }

  /** The outer loop of `from_iter`: rows `y..` of `lines`. */
  function DrawLines(p: Pix, lines: seq<seq<int>>, y: nat): (r: Pix)
    requires p.Valid() && y <= |lines|
    decreases |lines| - y
    ensures r.Valid() && r.width == p.width && r.height == p.height
    ensures forall i, j ::
              Get(r, i, j) ==
                if y <= j < |lines| && 0 <= i < |lines[j]| && InBounds(p, i, j)
                then Store(lines[j][i]) else Get(p, i, j)
  {
    if y == |lines| then p
    else DrawLines(DrawLine(p, lines[y], 0, y), lines, y + 1)
  }

  /**
   * `Pix.from_iter(lines)`: a `len(lines[0])`×`len(lines)` buffer holding
   * `lines[y][x]` at (x, y); values past the first row's length are dropped
   * and cells a short row does not reach stay 0. An empty `lines` has no
   * first row, so pew.py demands at least one.
   */
  function FromIter(lines: seq<seq<int>>): (p: Pix)
    requires |lines| > 0
    ensures p.Valid() && p.width == |lines[0]| && p.height == |lines|
    ensures forall x, y ::
              Get(p, x, y) == if InBounds(p, x, y) && x < |lines[y]| then Store(lines[y][x]) else 0
  {
    DrawLines(New(|lines[0]|, |lines|), lines, 0)
  }
}
